=== FILE: README.md ===
# GPE data-lake exporter in Dafny

This project models the control and bookkeeping logic of the GPE data-lake
exporter (`DatalakeExporter.cs`): how a run logs in, names its batch run,
truncates that name before each start attempt, retries refused starts,
uploads its records in chunks of 900 with a shared retry counter, stops the
batch run and logs out again. It proves what those steps do to the exporter's
fields and to the traffic the service sees.

The HTTP client is a script: the sequence of responses it will return, one per
request. A request that finds the script empty fails at the transport level,
just as an unreachable service does. A request's response is one of these:

- a success with a body;
- HTTP 400;
- any other status;
- an exception thrown by the client.

Every request and every `Thread.Sleep` is recorded in a history. A `Tally`
counts the events of each kind in it: logins, logouts, conflicts (batch events
answered 400), starts, successful and refused starts, stops, uploads, rejected
uploads and uploads lost to exceptions.

Modules:

- `Text`: the .NET string operations the exporter applies to run identifiers:
  - decimal rendering and parsing;
  - ordinal `LastIndexOf`, `Contains` and `Replace`.
- `Http`: the requests, the responses, the history, the tally, and lemmas that
  count single events.
- `Chunking`: `data.Skip(i * 900).Take(900)` over the loop indices
  `0 .. Count / 900`, with empty slices skipped.
- `Delivery`: one SendData pass as functions. It has one `ok` flag and one
  `retriesCount` for the whole call. A transport exception bumps the counter
  and pauses, and the same chunk is sent again while the counter is below 4.
- `BatchRun`:
  - the identifier `GPE-{date}-v{n}`;
  - the truncation before each start;
  - the rewrite of the identifier after a 400;
  - the batch-event form.
- `ExportModel`: each method of the exporter as a function from the state
  before the call to the outcome and the state after it. An exception that
  escapes a call is the outcome `Threw`.
- `Exporter`: the class `DatalakeExporter`, whose methods update its fields in
  place with loops where the source has loops. Each method is proved to leave
  the object, and to return, what the `ExportModel` or `Delivery` function it
  mirrors gives: `SendChunk` and `SendData` mirror the `Delivery` functions of
  those names, and `SendIndex` mirrors `Delivery.Next`. `Post` has no function
  counterpart; its contract states its effect directly.
- `ExportProperties`: what whole calls do to the history, the version, the
  retry counter and the key.

The model keeps these behaviours of the code as written:

- `retriesCount` is declared once per SendData call (line 134), not once per
  chunk, so a whole pass re-sends at most three times, not three times per chunk.
- BatchStartStop calls itself again after every 400 with no cap (line 259); only
  the length of the response script bounds it in the model.
- The stop event goes through the same BatchStartStop, so a 400 on a stop also
  bumps `_batchV` and rewrites the identifier.
- The truncation at line 69 runs before every start attempt. For an identifier
  without `_-_`, `LastIndexOf` gives -1, so the identifier is cut to its first
  two characters: a fresh run posts its first Start event to batch run "GP"
  (`FirstStartTargetsGP`).
- The regular expression at line 226 is applied to the empty string, so the
  form's batchId is always "GPE_", whatever the product.

## Model

| member | source | states |
|---|---|---|
| Text.NatToString | DatalakeExporter.cs:55 | The decimal rendering of a version is non-empty, all digits, and has more than one digit exactly from 10 on. |
| Text.ParseNatToString | DatalakeExporter.cs:55 | Reading back the digits that the identifier's interpolation writes gives the version again. |
| Text.NatToStringInjective | DatalakeExporter.cs:256 | Distinct versions are written differently. |
| Text.LastIndexOf | DatalakeExporter.cs:69 | Ordinal LastIndexOf is -1 or an occurrence of the pattern, and no occurrence starts after it. |
| Text.ContainsIff | DatalakeExporter.cs:250 | `Contains` holds exactly when LastIndexOf finds an occurrence. |
| Text.Replace | DatalakeExporter.cs:252 | Replacing a pattern by one of the same length keeps the length, and a longer replacement never shortens the string. |
| Text.ReplaceWithoutOccurrence | DatalakeExporter.cs:252 | Replace leaves a string without the pattern unchanged. |
| Text.ReplaceSkipsPrefix | DatalakeExporter.cs:252 | The left-to-right scan copies a prefix that cannot start the pattern and replaces nothing in it. |
| Text.ReplaceAtFront | DatalakeExporter.cs:252 | An occurrence at the scan position is replaced and the scan resumes after it, so occurrences do not overlap. |
| Text.ReplaceWhole | DatalakeExporter.cs:252 | A string that is exactly the pattern becomes the replacement. |
| Chunking.Skip | DatalakeExporter.cs:139 | Skip(n) has the length left after n and its elements are those from index n on. |
| Chunking.Take | DatalakeExporter.cs:139 | Take(n) is the prefix of length min(n, Count). |
| Chunking.Slice | DatalakeExporter.cs:139 | A slice holds at most 900 records. |
| Chunking.SliceRange | DatalakeExporter.cs:139 | Slice i is the records from min(900 i, Count) to min(900 (i + 1), Count). |
| Chunking.SliceEmptyIff | DatalakeExporter.cs:135-141 | Slice i is empty exactly from index ceil(Count / 900) on, and the loop reaches that index. |
| Chunking.ChunksFromLength | DatalakeExporter.cs:135-141 | From index i on, ceil(Count / 900) - i slices are sent (none past the last). |
| Chunking.ChunksFromIndexed | DatalakeExporter.cs:135-141 | The k-th chunk sent from index i on is slice i + k. |
| Chunking.FlattenChunksFrom | DatalakeExporter.cs:135-141 | The chunks from index i on concatenate to the records from slice i on. |
| Chunking.ChunksCover | DatalakeExporter.cs:135-141 | The chunks concatenate to the record list: every record is sent once, in order. |
| Chunking.ChunkShape | DatalakeExporter.cs:130-141 | There are ceil(Count / 900) chunks, each of 1 to 900 records, all but the last of exactly 900. |
| Chunking.LastIndexEmptyOnMultiple | DatalakeExporter.cs:135-141 | When Count is a multiple of 900 the last loop index has an empty slice, which is skipped. |
| Chunking.ChunksOf1801 | DatalakeExporter.cs:130-141 | 1801 records go out as 900, 900 and 1. |
| Delivery.SendChunkTraffic | DatalakeExporter.cs:143-205 | One chunk only appends uploads of 1 to 900 records for this run and key, and pauses, and never lowers the counter. |
| Delivery.SendChunkCounts | DatalakeExporter.cs:143-205 | One chunk: one upload plus the re-sends, one lost upload per counter step, at most one rejection, `ok` cleared exactly on a rejection, nothing else. |
| Delivery.LostChunkCounts | DatalakeExporter.cs:199-204 | A send lost to an exception, with the pause and the chunk's later sends, is counted like a whole chunk. |
| Delivery.SendFromPastData | DatalakeExporter.cs:139-141 | Indices from ceil(Count / 900) on send nothing. |
| Delivery.SendFromTraffic | DatalakeExporter.cs:137-206 | The loop over indices only appends uploads of this run under this key, and pauses. |
| Delivery.SendFromCounts | DatalakeExporter.cs:137-206 | The loop from index i makes one upload per non-empty slice plus the re-sends. |
| Delivery.SendDataEffect | DatalakeExporter.cs:127-221 | SendData: `ok` is false exactly when some upload got a non-success status; the counter equals the exceptions; ceil(Count / 900) uploads plus at most 3 re-sends in the whole call; only uploads of this run. |
| Delivery.SendChunkAllLost | DatalakeExporter.cs:199-204 | A chunk whose every send throws is sent until the counter reaches 4, and `ok` is unchanged. |
| Delivery.LoneChunkSentFourTimes | DatalakeExporter.cs:134-206 | Up to 900 records whose every upload throws: 4 uploads in all, and SendData still reports success. |
| BatchRun.RunIdVersion | DatalakeExporter.cs:256 | The version is read back from `GPE-{date}-v{n}`, so different versions give different identifiers. |
| BatchRun.Truncate | DatalakeExporter.cs:69 | The cut is defined exactly when a separator occurs or the identifier has at least two characters; it is a prefix ending at the last separator, or of length 2 without one. |
| BatchRun.TruncateIdempotent | DatalakeExporter.cs:67-69 | Truncating again before the next attempt changes nothing. |
| BatchRun.TruncateRunId | DatalakeExporter.cs:55 | `GPE-{date}-v{n}` with no '_' in the date is cut to "GP". |
| BatchRun.BumpedRunIdVersion | DatalakeExporter.cs:249-257 | After a 400 a non-backfill identifier is regenerated for today with the new version: it differs from the old-version identifier and is no backfill identifier. |
| BatchRun.BackfillWithoutMarker | DatalakeExporter.cs:250-252 | A backfill identifier without the old `-v{n}-` marker is kept as it was although the version moves on. |
| BatchRun.BackfillMarkerReplaced | DatalakeExporter.cs:249-252 | After a 400, a backfill identifier `pre-v{n}-post` (no '-' in pre or post) becomes `pre-v{n+1}-post`. |
| BatchRun.BuiltRunIdsNotBackfill | DatalakeExporter.cs:55 | The identifiers the exporter builds for a date without 'b', and their truncation "GP", never take the backfill branch. |
| BatchRun.StripLowerAndSpaces | DatalakeExporter.cs:226 | The result holds no lower-case letter or space, is no longer than the input, and keeps every other character. |
| BatchRun.StripAppend | DatalakeExporter.cs:226 | The replace works character by character: filtering a concatenation filters each part in order. |
| BatchRun.StripOne | DatalakeExporter.cs:226 | A single lower-case letter or space is removed and any other character kept; with StripAppend this fixes the result for every input. |
| BatchRun.EventFormFor | DatalakeExporter.cs:226-237 | The batch-event form: eventType "Start" exactly when starting and "End" otherwise, version "1", batchId "GPE_", asOf and the current key. |
| ExportModel.GetApiKeyFromCredentials | DatalakeExporter.cs:295-318 | Login returns true exactly on success and stores the body as the key; another status keeps the key and returns false; an exception escapes. |
| ExportModel.BatchStartStop | DatalakeExporter.cs:223-266 | A batch event leaves the retry counter, key and timestamp alone, only raises the version, keeps the identifier unless the version moved, and posts the event first. |
| ExportModel.ProcessData | DatalakeExporter.cs:269-293 | ProcessData changes only the script and the history, and nothing for no records. |
| ExportModel.Attempt | DatalakeExporter.cs:67-92 | A turn of `doOver:` goes round again only with `_retry` raised and below 5, keeps the key, and ends with false only once `_retry` reached 5. |
| ExportModel.StartAttempts | DatalakeExporter.cs:67-92 | The loop keeps the key and timestamp, never lowers `_retry`, and returns false only with `_retry` at 5 or more. |
| ExportModel.SendLogout | DatalakeExporter.cs:99-118 | Logout posts the key and clears it unless the post throws; the result is "" unless the status is a success. |
| ExportModel.DataLakeExport | DatalakeExporter.cs:59-97 | A failed login sends only the credentials request and keeps the key; an exception at login escapes. |
| Exporter.DatalakeExporter.constructor | DatalakeExporter.cs:23-33 | A new exporter has `_batchV` 1, `_retry` 0 and no key. |
| Exporter.DatalakeExporter.Post | DatalakeExporter.cs:108 | A POST consumes the next response and records the exchange. |
| Exporter.DatalakeExporter.GetApiKeyFromCredentials | DatalakeExporter.cs:295-318 | The method leaves the fields and returns as the login function does. |
| Exporter.DatalakeExporter.BatchStartStop | DatalakeExporter.cs:223-266 | The recursive method leaves the fields and returns as the batch-event function does. |
| Exporter.DatalakeExporter.SendChunk | DatalakeExporter.cs:143-205 | The `Retrier:` loop leaves `ok`, the counter, the script and the history as the chunk function does. |
| Exporter.DatalakeExporter.SendIndex | DatalakeExporter.cs:139-141 | One turn of the index loop sends the slice unless it is empty. |
| Exporter.DatalakeExporter.SendData | DatalakeExporter.cs:127-221 | The index loop returns the `ok` flag and leaves the script and history as the pass function does. |
| Exporter.DatalakeExporter.ProcessData | DatalakeExporter.cs:269-293 | The method sends the records in one pass unless there are none. |
| Exporter.DatalakeExporter.SendLogout | DatalakeExporter.cs:99-118 | The method leaves the fields and returns as the logout function does. |
| Exporter.DatalakeExporter.Attempt | DatalakeExporter.cs:67-92 | One turn of `doOver:` updates the fields as the turn function does and says whether to go round again. |
| Exporter.DatalakeExporter.StartAttempts | DatalakeExporter.cs:67-92 | The `doOver:` loop leaves the fields and returns as the loop function does. |
| Exporter.DatalakeExporter.DataLakeExport | DatalakeExporter.cs:59-97 | Login, start attempts and logout leave the fields as the export function does. |
| Exporter.DatalakeExporter.RunDataLakeExporter | DatalakeExporter.cs:52-57 | Stamps the run, names it `GPE-{today}-v{_batchV}` and exports, as the function does. |
| ExportProperties.BatchEventCounted | DatalakeExporter.cs:239-265 | A batch event answered 400 is one conflict; any other answer is one start or stop, a success or a refusal by its status. |
| ExportProperties.BatchStartStopCounts | DatalakeExporter.cs:223-266 | Each 400 raises `_batchV` by exactly one; a call ends with exactly one non-400 answer; a start returns true exactly on success and false exactly on another status. |
| ExportProperties.ConflictStep | DatalakeExporter.cs:247-259 | A 400 for a non-backfill identifier continues from version + 1 under the identifier generated for today. |
| ExportProperties.FinalAnswer | DatalakeExporter.cs:239-265 | A non-400 answer ends the call with the version and identifier unchanged and the outcome given by the status. |
| ExportProperties.ConflictsThenAnswer | DatalakeExporter.cs:247-259 | After n answers of 400 a non-backfill run ends at version `_batchV + n` under `GPE-{today}-v{_batchV + n}`, with the outcome of the final answer. |
| ExportProperties.ConflictThenAnswer | DatalakeExporter.cs:247-259 | The case of ConflictsThenAnswer with at least one 400. |
| ExportProperties.ProcessDataCounts | DatalakeExporter.cs:269-293 | ProcessData adds only uploads: one per chunk plus at most 3 re-sends. |
| ExportProperties.AfterStartCounts | DatalakeExporter.cs:71-77 | After a successful start the turn counts one pass of uploads (one per chunk plus at most 3 re-sends) and exactly one stop; the order is stated by SuccessfulTurnOrder. |
| ExportProperties.BatchStartStopTraffic | DatalakeExporter.cs:223-266 | A BatchStartStop call posts only Start events, or only End events, including every re-post after a 400. |
| ExportProperties.SuccessfulTurnOrder | DatalakeExporter.cs:69-77 | A turn whose start succeeds appends its Start events, then only uploads of the started run under the current key and pauses, then the 5 s pause, then at least one End event and nothing else. |
| ExportProperties.UploadsBeforeStop | DatalakeExporter.cs:71-77 | Within a successful turn every upload comes before every End event. |
| ExportProperties.RefusedStartCounts | DatalakeExporter.cs:78-81 | A refused start is one start and one refusal, and raises `_retry` by one. |
| ExportProperties.ThrownStartCounts | DatalakeExporter.cs:69-71 | A start that throws counts one start and nothing else. |
| ExportProperties.UntruncatableCounts | DatalakeExporter.cs:69 | When Substring cannot cut the identifier, the turn and the whole loop throw with the state unchanged, having sent nothing. |
| ExportProperties.TurnCounts | DatalakeExporter.cs:67-92 | A turn either ends the loop, counted as the whole loop is, or is a refusal and goes round again. |
| ExportProperties.AttemptsCountsHold | DatalakeExporter.cs:67-92 | The loop makes at most 5 - `_retry` starts, raises `_retry` once per refusal, succeeds at most once, and stops exactly after a success, with uploads only then. |
| ExportProperties.LoginGate | DatalakeExporter.cs:65 | Without a successful login the run sends only the credentials request and keeps the key. |
| ExportProperties.ExportCounts | DatalakeExporter.cs:59-97 | After a successful login: one login and the loop's bounds. Exactly when the loop did not throw, one logout is sent, last, with the key the login returned, and the run returns unless that logout throws; a loop that throws sends no logout and the run throws. A run that returns leaves the key "". |
| ExportProperties.RefusedEveryTime | DatalakeExporter.cs:78-92 | When every start is refused the loop makes 5 - `_retry` attempts, ends false with `_retry` at 5, and keeps the version. |
| ExportProperties.RefusedRun | DatalakeExporter.cs:52-97 | A fresh run whose five starts are refused: one login, five refused starts, no upload or stop, `_retry` 5, version 1, then exactly one logout, which clears the key unless it throws. |
| ExportProperties.FirstStartLogged | DatalakeExporter.cs:69-71 | The first request of the loop is the Start event for the truncated identifier. |
| ExportProperties.FirstStartTargetsGP | DatalakeExporter.cs:52-71 | A fresh run logs in and then posts its first Start event to batch run "GP", not to `GPE-{today}-v1`. |

## Left out

- The HTTP bodies are not modelled. Serialising the records to JSON, the multipart and URL-encoded forms, and the base URL are left out. Requests are named by their kind and the fields the logic depends on.
- The records themselves (`DataPoint`, DataPoint.cs) are a type parameter. Only how many of them there are matters to the logic.
- Uploads run one after another in index order. `Parallel.For` with up to three workers, and the races on `ok` and `retriesCount` that it allows, are concurrency and are not modelled. Its body is an async lambda, so `Parallel.For` can return before the uploads and their re-sends finish, and those can then follow the End event. `SuccessfulTurnOrder` and `UploadsBeforeStop` state the order of this sequential model, not of the code's timing.
- `Thread.Sleep` is recorded only as a pause event of the given length; no time passes in the model.
- The `SpinWait(1000)` at the end of SendData is a busy loop with no observable effect, so it is dropped.
- Clock readings are parameters. `DateTime.UtcNow` is `now` for the timestamp and `today` for the date in identifiers, taken once per run.
- The `requestId` of an upload (clock ticks plus the index) is reduced to the index.
- The `runDate` field of a batch event is not modelled. So is the exception `DateTime.Parse` could throw for it.
- Logging (Serilog), console output and reading the configuration are not modelled.
- `Program.cs`, which builds the exporter and calls RunDataLakeExporter, is not part of this model.
- ProcessData builds a one-element stub list. The model takes the record list as a parameter and sends it if it is not empty.
- `currentApiKey` is static in C#. The model has one exporter, so it is a field of the object.
- SendData's outer `catch` and its `IsCompleted` test cannot change the outcome once the loop is sequential. The model returns `ok`.
- An exception from `ReadAsStringAsync` is not modelled. Reading a response body never fails.
- Exporter.DatalakeExporter.ProcessData: the result of SendData is logged only, so the method's contract says nothing about it.

=== FILE: BatchRun.dfy ===
/** The batch-run identifier and the form of a batch-run event. */
module BatchRun {
  import opened Text
  import opened Http

  /** `_batchId`, fixed for every run. */
  const BatchName := "GPE"
  /** What the identifier is cut after before each start attempt. */
  const Separator := "_-_"
  /** An identifier containing this is rewritten in place on a version bump. */
  const BackfillMark := "backfill"

  /** `{_batchId}-{date}-v{_batchV}`. */
  function RunId(name: string, date: string, version: nat): string
  {
    name + "-" + date + "-v" + NatToString(version)
  }

  /** The version a run identifier of `name` and `date` carries, read back
      from its tail. */
  function VersionOf(id: string, name: string, date: string): nat
    requires |id| >= |name| + |date| + 3
    requires forall k :: |name| + |date| + 3 <= k < |id| ==> '0' <= id[k] <= '9'
  {
    ParseNat(id[|name| + |date| + 3..])
  }

  /** The version is recovered from the identifier, so versions that differ
      give identifiers that differ. */
  lemma RunIdVersion(name: string, date: string, v: nat, w: nat)
    ensures VersionOf(RunId(name, date, v), name, date) == v
    ensures v != w ==> RunId(name, date, v) != RunId(name, date, w)
  {
    var id := RunId(name, date, v);
    assert id[|name| + |date| + 3..] == NatToString(v);
    ParseNatToString(v);
    ParseNatToString(w);
    assert RunId(name, date, w)[|name| + |date| + 3..] == NatToString(w);
  }

  /** A character found neither in the name, the date, "-v" nor among the
      digits is absent from the identifier. */
  lemma RunIdLacks(name: string, date: string, version: nat, c: char)
    requires c !in name && c !in date && c != '-' && c != 'v' && !('0' <= c <= '9')
    ensures c !in RunId(name, date, version)
  {
    var digits := NatToString(version);
    assert c !in digits;
  }

  /** `id.Substring(0, id.LastIndexOf("_-_") + 3)`: the identifier up to and
      including its last separator, or, when there is none (LastIndexOf gives
      -1), its first two characters; None where Substring would throw. */
  function Truncate(id: string): (r: Option<string>)
    ensures r.Some? <==> Contains(id, Separator) || |id| >= 2
    ensures r.Some? ==> |r.value| <= |id| && r.value == id[..|r.value|]
    ensures r.Some? && Contains(id, Separator) ==>
      |r.value| >= 3 && OccursAt(id, Separator, |r.value| - 3) &&
      forall j :: OccursAt(id, Separator, j) ==> j <= |r.value| - 3
    ensures r.Some? && !Contains(id, Separator) ==> |r.value| == 2
  {
    var cut := LastIndexOf(id, Separator) + |Separator|;
    if cut <= |id| then Some(id[..cut]) else None
  }

  /** Truncating twice is truncating once: the separator that ends the cut
      is also the last one in it. */
  lemma TruncateIdempotent(id: string)
    requires Truncate(id).Some?
    ensures Truncate(Truncate(id).value) == Truncate(id)
  {
    var t := Truncate(id).value;
    if Contains(id, Separator) {
      assert OccursAt(t, Separator, |t| - 3) by {
        assert t[|t| - 3..|t|] == id[|t| - 3..|t|];
      }
      forall j | OccursAt(t, Separator, j)
        ensures j <= |t| - 3
      {
        assert t[j..j + 3] == id[j..j + 3];
        assert OccursAt(id, Separator, j);
      }
      assert t[..|t|] == t;
    } else {
      assert t[..2] == t;
    }
  }

  /** For a date without '_', the identifier `GPE-{date}-v{n}` holds no
      separator, so truncation keeps only its first two characters, "GP". */
  lemma TruncateRunId(date: string, version: nat)
    requires '_' !in date
    ensures Truncate(RunId(BatchName, date, version)) == Some("GP")
  {
    var id := RunId(BatchName, date, version);
    RunIdLacks(BatchName, date, version, '_');
    NotContainsWithoutFirstChar(id, Separator);
    assert id[..2] == "GP";
  }

  /** The marker `-v{n}-` that a backfill identifier carries for version n. */
  function VersionMarker(version: nat): string
  {
    "-v" + NatToString(version) + "-"
  }

  /** The identifier after a 400 bumped the version from `version` to
      `version + 1`: a backfill identifier has its version marker replaced;
      any other is generated afresh for the current date. */
  function BumpedRunId(id: string, version: nat, today: string): string
  {
    if Contains(id, BackfillMark) then Replace(id, VersionMarker(version), VersionMarker(version + 1))
    else RunId(BatchName, today, version + 1)
  }

  /** A non-backfill identifier is regenerated carrying the new version, so
      it differs from the identifier of the old version for that date; for
      a date without 'b' the new identifier is no backfill identifier either. */
  lemma BumpedRunIdVersion(id: string, version: nat, today: string)
    requires !Contains(id, BackfillMark)
    ensures BumpedRunId(id, version, today) == RunId(BatchName, today, version + 1)
    ensures VersionOf(BumpedRunId(id, version, today), BatchName, today) == version + 1
    ensures BumpedRunId(id, version, today) != RunId(BatchName, today, version)
    ensures 'b' !in today ==> !Contains(BumpedRunId(id, version, today), BackfillMark)
  {
    RunIdVersion(BatchName, today, version + 1, version);
    if 'b' !in today {
      RunIdLacks(BatchName, today, version + 1, 'b');
      NotContainsWithoutFirstChar(RunId(BatchName, today, version + 1), BackfillMark);
    }
  }

  /** A backfill identifier that lacks the old marker is left as it was,
      although the version moves on. */
  lemma BackfillWithoutMarker(id: string, version: nat, today: string)
    requires Contains(id, BackfillMark) && !Contains(id, VersionMarker(version))
    ensures BumpedRunId(id, version, today) == id
  {
    ReplaceWithoutOccurrence(id, VersionMarker(version), VersionMarker(version + 1));
  }

  /** A backfill identifier carrying the marker of the old version once,
      between parts without '-', has that marker replaced by the new one. */
  lemma BackfillMarkerReplaced(pre: string, post: string, version: nat, today: string)
    requires '-' !in pre && '-' !in post
    requires Contains(pre + VersionMarker(version) + post, BackfillMark)
    ensures BumpedRunId(pre + VersionMarker(version) + post, version, today)
         == pre + VersionMarker(version + 1) + post
  {
    var was, now := VersionMarker(version), VersionMarker(version + 1);
    assert pre + was + post == pre + (was + post);
    ReplaceSkipsPrefix(pre, was + post, was, now);
    ReplaceAtFront(was, post, now);
    NotContainsWithoutFirstChar(post, was);
    ReplaceWithoutOccurrence(post, was, now);
    assert pre + (now + post) == pre + now + post;
  }

  /** The identifiers the exporter builds itself, for a date without 'b',
      and their truncation "GP" are no backfill identifiers. */
  lemma BuiltRunIdsNotBackfill(date: string, version: nat)
    requires 'b' !in date
    ensures !Contains(RunId(BatchName, date, version), BackfillMark)
    ensures !Contains("GP", BackfillMark)
  {
    RunIdLacks(BatchName, date, version, 'b');
    NotContainsWithoutFirstChar(RunId(BatchName, date, version), BackfillMark);
  }

  /** `new Regex("[a-z ]").Replace(s, "")`: `s` without lower-case ASCII
      letters and spaces. */
  function StripLowerAndSpaces(s: string): (r: string)
    ensures |r| <= |s|
    ensures forall k :: 0 <= k < |r| ==> !('a' <= r[k] <= 'z') && r[k] != ' '
    ensures forall k :: 0 <= k < |s| && !('a' <= s[k] <= 'z') && s[k] != ' ' ==> s[k] in r
  {
    if s == [] then []
    else
      var rest := StripLowerAndSpaces(s[1..]);
      assert forall k :: 1 <= k < |s| ==> s[k] == s[1..][k - 1];
      if 'a' <= s[0] <= 'z' || s[0] == ' ' then rest else [s[0]] + rest
  }

  /** The filter works character by character: filtering a concatenation
      filters each part, in order. */
  lemma {:induction false} StripAppend(a: string, b: string)
    ensures StripLowerAndSpaces(a + b) == StripLowerAndSpaces(a) + StripLowerAndSpaces(b)
    decreases |a|
  {
    if a == [] {
      assert a + b == b;
    } else {
      assert (a + b)[0] == a[0];
      assert (a + b)[1..] == a[1..] + b;
      StripAppend(a[1..], b);
    }
  }

  /** A lower-case ASCII letter or a space is removed; any other character is kept. */
  lemma StripOne(c: char)
    ensures StripLowerAndSpaces([c]) == if 'a' <= c <= 'z' || c == ' ' then [] else [c]
  {
    assert [c][1..] == [];
  }

  /** The form of a batch-run event. The filter runs over the empty string,
      not over `product`, so the batch id is "GPE_" whatever the product. */
  function EventFormFor(starting: bool, product: string, asOf: string, apiKey: string): (f: EventForm)
    ensures f.batchId == BatchName + "_"
    ensures f.eventType == "Start" <==> starting
    ensures f.eventType == "End" <==> !starting
    ensures f.dictionaryVersion == "1" && f.asOf == asOf && f.apikey == apiKey
  {
    var tag := StripLowerAndSpaces("");
    EventForm(if starting then "Start" else "End", "1", BatchName + "_" + tag, asOf, apiKey)
  }
}

=== FILE: Chunking.dfy ===
/** How SendData cuts the record list into uploads: loop indices
    0 .. Count / 900 (inclusive), the slice Skip(i * 900).Take(900) for each,
    empty slices skipped. */
module Chunking {

  /** Records per upload. The service accepts 1000; the exporter sends 900. */
  const MaxChunk: nat := 900

  function Min(a: int, b: int): int { if a <= b then a else b }

  /** Enumerable.Skip: everything after the first `n` elements. */
  function Skip<T>(s: seq<T>, n: nat): (r: seq<T>)
    ensures |r| == |s| - Min(n, |s|)
    ensures forall k :: 0 <= k < |r| ==> r[k] == s[n + k]
  {
    if n <= |s| then s[n..] else []
  }

  /** Enumerable.Take: the first `n` elements, or all when there are fewer. */
  function Take<T>(s: seq<T>, n: nat): (r: seq<T>)
    ensures |r| == Min(n, |s|)
    ensures r == s[..|r|]
  {
    if n <= |s| then s[..n] else s
  }

  /** Where slice `i` of a list of `count` records begins. */
  function Start(count: nat, i: nat): nat
  {
    Min(i * MaxChunk, count)
  }

  /** data.Skip(i * 900).Take(900): the records of loop index `i`. */
  function Slice<T>(data: seq<T>, i: nat): (r: seq<T>)
    ensures |r| <= MaxChunk
  {
    Take(Skip(data, i * MaxChunk), MaxChunk)
  }

  /** Slice `i` is the records from Start(i) up to Start(i + 1). */
  lemma SliceRange<T>(data: seq<T>, i: nat)
    ensures Slice(data, i) == data[Start(|data|, i)..Start(|data|, i + 1)]
  {
  }

  /** The number of loop indices, Count / 900 + 1. */
  function Runs(count: nat): nat
  {
    count / MaxChunk + 1
  }

  /** The number of uploads a list of `count` records needs: count / 900 rounded up. */
  function ChunkCount(count: nat): nat
  {
    (count + MaxChunk - 1) / MaxChunk
  }

  /** The non-empty slices of loop indices i .. runs - 1, in index order. */
  function ChunksFrom<T>(data: seq<T>, i: nat, runs: nat): seq<seq<T>>
    decreases runs - i
  {
    if i >= runs then []
    else
      var d := Slice(data, i);
      (if |d| == 0 then [] else [d]) + ChunksFrom(data, i + 1, runs)
  }

  /** The slices SendData uploads. */
  function Chunks<T>(data: seq<T>): seq<seq<T>>
  {
    ChunksFrom(data, 0, Runs(|data|))
  }

  function Flatten<T>(ss: seq<seq<T>>): seq<T>
  {
    if ss == [] then [] else ss[0] + Flatten(ss[1..])
  }

  /** A slice is empty exactly from index ChunkCount on, and the loop runs past it. */
  lemma SliceEmptyIff<T>(data: seq<T>, i: nat)
    ensures |Slice(data, i)| == 0 <==> i >= ChunkCount(|data|)
    ensures ChunkCount(|data|) <= Runs(|data|)
  {
  }

  /** From index `i` there are ChunkCount - i non-empty slices (none past ChunkCount). */
  lemma {:induction false} ChunksFromLength<T>(data: seq<T>, i: nat, runs: nat)
    requires ChunkCount(|data|) <= runs
    ensures |ChunksFrom(data, i, runs)| == if i < ChunkCount(|data|) then ChunkCount(|data|) - i else 0
    decreases runs - i
  {
    if i < runs {
      SliceEmptyIff(data, i);
      ChunksFromLength(data, i + 1, runs);
    }
  }

  /** The non-empty slices from index `i` are the slices i, i + 1, ... in order. */
  lemma {:induction false} ChunksFromIndexed<T>(data: seq<T>, i: nat, runs: nat)
    requires ChunkCount(|data|) <= runs
    ensures forall k :: 0 <= k < |ChunksFrom(data, i, runs)| ==> ChunksFrom(data, i, runs)[k] == Slice(data, i + k)
    decreases runs - i
  {
    if i < runs {
      var d, rest := Slice(data, i), ChunksFrom(data, i + 1, runs);
      var c := ChunksFrom(data, i, runs);
      ChunksFromIndexed(data, i + 1, runs);
      if |d| == 0 {
        SliceEmptyIff(data, i);
        ChunksFromLength(data, i + 1, runs);
        assert c == rest == [];
      } else {
        assert c == [d] + rest;
        ConsSlices(data, i, rest);
      }
    }
  }

  /** Slice `i` in front of the slices from `i + 1` on gives the slices from `i` on. */
  lemma ConsSlices<T>(data: seq<T>, i: nat, rest: seq<seq<T>>)
    requires forall k :: 0 <= k < |rest| ==> rest[k] == Slice(data, i + 1 + k)
    ensures forall k :: 0 <= k < |rest| + 1 ==> ([Slice(data, i)] + rest)[k] == Slice(data, i + k)
  {
    var c := [Slice(data, i)] + rest;
    forall k | 0 <= k < |c|
      ensures c[k] == Slice(data, i + k)
    {
      if k > 0 {
        assert c[k] == rest[k - 1];
      }
    }
  }

  /** The records from slice `i` on are slice `i` followed by the records
      from slice `i + 1` on. */
  lemma SliceSplit<T>(data: seq<T>, i: nat)
    ensures data[Start(|data|, i)..] == Slice(data, i) + data[Start(|data|, i + 1)..]
  {
    SliceRange(data, i);
  }

  /** The non-empty slices from index `i` concatenate to the records from slice `i` on. */
  lemma {:induction false} FlattenChunksFrom<T>(data: seq<T>, i: nat, runs: nat)
    requires ChunkCount(|data|) <= runs
    ensures Flatten(ChunksFrom(data, i, runs)) == data[Start(|data|, i)..]
    decreases runs - i
  {
    if i >= runs {
      assert Start(|data|, i) == |data|;
    } else {
      var d := Slice(data, i);
      var rest := ChunksFrom(data, i + 1, runs);
      FlattenChunksFrom(data, i + 1, runs);
      SliceSplit(data, i);
      if |d| == 0 {
        assert ChunksFrom(data, i, runs) == rest;
      } else {
        assert ChunksFrom(data, i, runs) == [d] + rest;
        assert ([d] + rest)[1..] == rest;
      }
    }
  }

  /** The uploads cover the record list exactly once, in order. */
  lemma ChunksCover<T>(data: seq<T>)
    ensures Flatten(Chunks(data)) == data
  {
    SliceEmptyIff(data, 0);
    FlattenChunksFrom(data, 0, Runs(|data|));
  }

  /** There are ceil(Count / 900) uploads; each holds 1 to 900 records, and
      every one but the last holds exactly 900. */
  lemma ChunkShape<T>(data: seq<T>)
    ensures |Chunks(data)| == ChunkCount(|data|)
    ensures forall k :: 0 <= k < |Chunks(data)| ==> 0 < |Chunks(data)[k]| <= MaxChunk
    ensures forall k :: 0 <= k < |Chunks(data)| - 1 ==> |Chunks(data)[k]| == MaxChunk
  {
    SliceEmptyIff(data, 0);
    ChunksFromLength(data, 0, Runs(|data|));
    ChunksFromIndexed(data, 0, Runs(|data|));
    forall k | 0 <= k < |Chunks(data)|
      ensures 0 < |Chunks(data)[k]| <= MaxChunk
      ensures k < |Chunks(data)| - 1 ==> |Chunks(data)[k]| == MaxChunk
    {
      SliceEmptyIff(data, k);
    }
  }

  /** When Count is a multiple of 900 (0 included) the last loop index has an
      empty slice, which is skipped. */
  lemma LastIndexEmptyOnMultiple<T>(data: seq<T>)
    requires |data| % MaxChunk == 0
    ensures Slice(data, Runs(|data|) - 1) == []
    ensures |Chunks(data)| == Runs(|data|) - 1
  {
    SliceEmptyIff(data, Runs(|data|) - 1);
    ChunkShape(data);
  }

  /** 1801 records go out as 900, 900 and 1. */
  lemma ChunksOf1801<T>(data: seq<T>)
    requires |data| == 1801
    ensures |Chunks(data)| == 3
    ensures |Chunks(data)[0]| == 900 && |Chunks(data)[1]| == 900 && |Chunks(data)[2]| == 1
  {
    ChunkShape(data);
    ChunksCover(data);
    var c := Chunks(data);
    assert Flatten(c) == c[0] + (c[1] + (c[2] + Flatten(c[3..])));
    assert c[3..] == [];
  }
}

=== FILE: Delivery.dfy ===
/** One SendData pass, taken one chunk after another: every non-empty slice
    is uploaded; a non-success status clears the single `ok` flag; a
    transport exception bumps the single `retriesCount` of the call, pauses,
    and re-sends the same slice while the bumped count is below 4. */
module Delivery {
  import opened Http
  import opened Chunking

  /** A failed upload is sent again only while `retriesCount < 4`. */
  const RetryLimit: nat := 4
  const RetryPauseMillis: nat := 2000

  /** The state of a pass: the `ok` flag, the `retriesCount` shared by all
      chunks, the responses still to come, and the history. */
  datatype Pass = Pass(ok: bool, retries: nat, net: seq<Response>, log: seq<Event>)

  /** How many re-sends a pass whose counter reached `retries` has made. */
  function Resends(retries: nat): nat
  {
    Min(retries, RetryLimit - 1)
  }

  /** An event a pass may produce: a pause, or an upload for run `runId`
      under key `apiKey` of 1 to 900 records. */
  predicate IsPassEvent(e: Event, runId: string, apiKey: string)
  {
    e.Pause? ||
    (e.request.Upload? && e.request.batchRunId == runId && e.request.apikey == apiKey &&
     0 < e.request.records <= MaxChunk)
  }

  /** Everything from index `from` of `log` on is pass traffic. */
  predicate PassTraffic(log: seq<Event>, from: nat, runId: string, apiKey: string)
  {
    forall k :: from <= k < |log| ==> IsPassEvent(log[k], runId, apiKey)
  }

  /** The `Retrier:` loop of one chunk: send, and on a transport exception
      count it, pause and, while the count is below the limit, send again. */
  function SendChunk(index: nat, records: nat, runId: string, apiKey: string, p: Pass): Pass
    decreases RetryLimit - p.retries
  {
    var resp := Answer(p.net);
    var sent := p.(net := Rest(p.net), log := p.log + [Exchange(Upload(index, records, runId, apiKey), resp)]);
    match resp
    case Ok(_) => sent
    case TransportError =>
      var failed := sent.(retries := sent.retries + 1, log := sent.log + [Pause(RetryPauseMillis)]);
      if failed.retries < RetryLimit then SendChunk(index, records, runId, apiKey, failed) else failed
    case _ => sent.(ok := false)
  }

  /** One turn of the loop at index `i`: its slice is sent unless it is empty. */
  function Next<T>(data: seq<T>, i: nat, runId: string, apiKey: string, p: Pass): Pass
  {
    var d := Slice(data, i);
    if |d| == 0 then p else SendChunk(i, |d|, runId, apiKey, p)
  }

  /** The loop over indices i .. runs - 1. */
  function SendFrom<T>(data: seq<T>, i: nat, runs: nat, runId: string, apiKey: string, p: Pass): Pass
    decreases runs - i
  {
    if i >= runs then p
    else SendFrom(data, i + 1, runs, runId, apiKey, Next(data, i, runId, apiKey, p))
  }

  /** One turn of the loop over indices. */
  lemma SendFromStep<T>(data: seq<T>, i: nat, runs: nat, runId: string, apiKey: string, p: Pass)
    requires i < runs
    ensures SendFrom(data, i, runs, runId, apiKey, p)
         == SendFrom(data, i + 1, runs, runId, apiKey, Next(data, i, runId, apiKey, p))
  {
  }

  /** Past the last index the loop leaves the pass as it is. */
  lemma SendFromDone<T>(data: seq<T>, runs: nat, runId: string, apiKey: string, p: Pass)
    ensures SendFrom(data, runs, runs, runId, apiKey, p) == p
  {
  }

  /** SendData: `ok` starts true and `retriesCount` at 0. */
  function SendData<T>(data: seq<T>, runId: string, apiKey: string, net: seq<Response>, log: seq<Event>): Pass
  {
    SendFrom(data, 0, Runs(|data|), runId, apiKey, Pass(true, 0, net, log))
  }

  /** The counts a pass never changes: everything but uploads, rejections
      and transport failures. */
  predicate OnlyUploadsCounted(t0: Tally, t1: Tally)
  {
    && t1.logins == t0.logins && t1.logouts == t0.logouts && t1.conflicts == t0.conflicts
    && t1.starts == t0.starts && t1.started == t0.started && t1.startRefused == t0.startRefused
    && t1.stops == t0.stops
  }

  /** Appending pass events extends the history with pass traffic. */
  lemma TrafficAppend(log: seq<Event>, extra: seq<Event>, runId: string, apiKey: string)
    requires forall k :: 0 <= k < |extra| ==> IsPassEvent(extra[k], runId, apiKey)
    ensures Extends(log, log + extra) && PassTraffic(log + extra, |log|, runId, apiKey)
  {
    assert (log + extra)[..|log|] == log;
  }

  /** Pass traffic after pass traffic is pass traffic. */
  lemma TrafficCompose(a: seq<Event>, b: seq<Event>, c: seq<Event>, runId: string, apiKey: string)
    requires Extends(a, b) && PassTraffic(b, |a|, runId, apiKey)
    requires Extends(b, c) && PassTraffic(c, |b|, runId, apiKey)
    ensures Extends(a, c) && PassTraffic(c, |a|, runId, apiKey)
  {
    ExtendsTrans(a, b, c);
    forall k | |a| <= k < |b|
      ensures IsPassEvent(c[k], runId, apiKey)
    {
      assert c[k] == c[..|b|][k];
    }
  }

  /** One chunk appends only its own uploads and pauses to the history. */
  lemma {:induction false} SendChunkTraffic(index: nat, records: nat, runId: string, apiKey: string, p: Pass)
    requires 0 < records <= MaxChunk
    ensures var r := SendChunk(index, records, runId, apiKey, p);
      && p.retries <= r.retries
      && Extends(p.log, r.log) && PassTraffic(r.log, |p.log|, runId, apiKey)
    decreases RetryLimit - p.retries
  {
    var resp := Answer(p.net);
    var e := Exchange(Upload(index, records, runId, apiKey), resp);
    var sent := p.(net := Rest(p.net), log := p.log + [e]);
    var r := SendChunk(index, records, runId, apiKey, p);
    if resp.TransportError? {
      var failed := sent.(retries := sent.retries + 1, log := sent.log + [Pause(RetryPauseMillis)]);
      assert failed.log == p.log + [e, Pause(RetryPauseMillis)];
      TrafficAppend(p.log, [e, Pause(RetryPauseMillis)], runId, apiKey);
      if failed.retries < RetryLimit {
        assert r == SendChunk(index, records, runId, apiKey, failed);
        SendChunkTraffic(index, records, runId, apiKey, failed);
        TrafficCompose(p.log, failed.log, r.log, runId, apiKey);
      } else {
        assert r == failed;
      }
    } else {
      assert r.log == p.log + [e] && r.retries == p.retries;
      TrafficAppend(p.log, [e], runId, apiKey);
    }
  }

  /** From tally `t0`, flag `ok0` and counter `k0` to `t1`, `ok1` and `k1`:
      `uploads` uploads beyond the re-sends, one transport failure per step
      of the counter, `ok` cleared exactly when some upload was rejected,
      and nothing else counted. */
  predicate Counted(t0: Tally, t1: Tally, ok0: bool, ok1: bool, k0: nat, k1: nat, uploads: nat)
  {
    && k0 <= k1
    && OnlyUploadsCounted(t0, t1)
    && t1.uploads == t0.uploads + uploads + Resends(k1) - Resends(k0)
    && t1.lost == t0.lost + k1 - k0
    && t0.rejected <= t1.rejected
    && ok1 == (ok0 && t1.rejected == t0.rejected)
  }

  /** What a pass did from `p` to `r`, counted. */
  predicate PassCounts(p: Pass, r: Pass, uploads: nat)
  {
    Counted(TallyOf(p.log), TallyOf(r.log), p.ok, r.ok, p.retries, r.retries, uploads)
  }

  /** An upload answered with a status: one upload; a rejection clears `ok`. */
  lemma AnsweredUploadCounted(t0: Tally, t1: Tally, ok: bool, k: nat, resp: Response)
    requires !resp.TransportError?
    requires t1 == t0.(uploads := t0.uploads + 1, rejected := t0.rejected + Bit(IsStatusFailure(resp)))
    ensures Counted(t0, t1, ok, ok && !IsStatusFailure(resp), k, k, 1)
  {
  }

  /** An upload lost to a transport exception bumps the counter; it is a
      re-send still to be counted unless the counter reached the limit. */
  lemma LostUploadCounted(t0: Tally, t1: Tally, ok: bool, k: nat)
    requires t1 == t0.(uploads := t0.uploads + 1, lost := t0.lost + 1)
    ensures Counted(t0, t1, ok, ok, k, k + 1, if k + 1 < RetryLimit then 0 else 1)
  {
  }

  /** One chunk: one upload plus one per re-send, each transport exception
      counted once, at most one rejection, and `ok` cleared exactly when the
      chunk was rejected. */
  lemma {:induction false} SendChunkCounts(index: nat, records: nat, runId: string, apiKey: string, p: Pass)
    ensures PassCounts(p, SendChunk(index, records, runId, apiKey, p), 1)
    ensures TallyOf(SendChunk(index, records, runId, apiKey, p).log).rejected <= TallyOf(p.log).rejected + 1
    decreases RetryLimit - p.retries, 1
  {
    var resp := Answer(p.net);
    if resp.TransportError? {
      LostChunkCounts(index, records, runId, apiKey, p);
    } else {
      var e := Exchange(Upload(index, records, runId, apiKey), resp);
      var sent := p.(net := Rest(p.net), log := p.log + [e]);
      assert SendChunk(index, records, runId, apiKey, p) == sent.(ok := p.ok && !IsStatusFailure(resp));
      UploadCounted(p.log, e);
      AnsweredUploadCounted(TallyOf(p.log), TallyOf(sent.log), p.ok, p.retries, resp);
    }
  }

  /** SendChunkCounts for a send lost to a transport exception: the lost
      upload, the pause, and the rest of the chunk's sends. */
  lemma {:induction false} LostChunkCounts(index: nat, records: nat, runId: string, apiKey: string, p: Pass)
    requires Answer(p.net).TransportError?
    ensures PassCounts(p, SendChunk(index, records, runId, apiKey, p), 1)
    ensures TallyOf(SendChunk(index, records, runId, apiKey, p).log).rejected <= TallyOf(p.log).rejected + 1
    decreases RetryLimit - p.retries, 0
  {
    var e := Exchange(Upload(index, records, runId, apiKey), Answer(p.net));
    var sent := p.(net := Rest(p.net), log := p.log + [e]);
    var failed := sent.(retries := sent.retries + 1, log := sent.log + [Pause(RetryPauseMillis)]);
    var r := SendChunk(index, records, runId, apiKey, p);
    assert r == if failed.retries < RetryLimit then SendChunk(index, records, runId, apiKey, failed) else failed;
    UploadCounted(p.log, e);
    PauseCounted(sent.log, RetryPauseMillis);
    LostUploadCounted(TallyOf(p.log), TallyOf(sent.log), p.ok, p.retries);
    if failed.retries < RetryLimit {
      SendChunkCounts(index, records, runId, apiKey, failed);
      PassCountsCompose(p, failed, r, 0, 1);
    }
  }

  /** Slices from index ChunkCount on are empty, so the loop does nothing there. */
  lemma {:induction false} SendFromPastData<T>(data: seq<T>, i: nat, runs: nat, runId: string, apiKey: string, p: Pass)
    requires ChunkCount(|data|) <= i
    ensures SendFrom(data, i, runs, runId, apiKey, p) == p
    decreases runs - i
  {
    if i < runs {
      SliceEmptyIff(data, i);
      SendFromPastData(data, i + 1, runs, runId, apiKey, p);
    }
  }

  /** The loop from index `i` appends only uploads and pauses of this run. */
  lemma {:induction false} SendFromTraffic<T>(data: seq<T>, i: nat, runs: nat, runId: string, apiKey: string, p: Pass)
    ensures var r := SendFrom(data, i, runs, runId, apiKey, p);
      && p.retries <= r.retries
      && Extends(p.log, r.log) && PassTraffic(r.log, |p.log|, runId, apiKey)
    decreases runs - i
  {
    if i < runs {
      var d := Slice(data, i);
      var next := if |d| == 0 then p else SendChunk(i, |d|, runId, apiKey, p);
      if |d| > 0 {
        SendChunkTraffic(i, |d|, runId, apiKey, p);
      }
      SendFromTraffic(data, i + 1, runs, runId, apiKey, next);
      var r := SendFrom(data, i + 1, runs, runId, apiKey, next);
      if |d| == 0 {
        assert next == p;
      } else {
        TrafficCompose(p.log, next.log, r.log, runId, apiKey);
      }
    }
  }

  lemma PassCountsCompose(p: Pass, q: Pass, r: Pass, a: nat, b: nat)
    requires PassCounts(p, q, a) && PassCounts(q, r, b)
    ensures PassCounts(p, r, a + b)
  {
  }

  lemma PassCountsNone(p: Pass)
    ensures PassCounts(p, p, 0)
  {
  }

  /** The loop from index `i`: one upload per non-empty slice plus the re-sends. */
  lemma {:induction false} SendFromCounts<T>(data: seq<T>, i: nat, runs: nat, runId: string, apiKey: string, p: Pass)
    requires ChunkCount(|data|) <= runs
    ensures PassCounts(p, SendFrom(data, i, runs, runId, apiKey, p), |ChunksFrom(data, i, runs)|)
    decreases runs - i
  {
    if i < runs {
      var d := Slice(data, i);
      var next := if |d| == 0 then p else SendChunk(i, |d|, runId, apiKey, p);
      var r := SendFrom(data, i + 1, runs, runId, apiKey, next);
      SendFromCounts(data, i + 1, runs, runId, apiKey, next);
      if |d| > 0 {
        SendChunkCounts(i, |d|, runId, apiKey, p);
        PassCountsCompose(p, next, r, 1, |ChunksFrom(data, i + 1, runs)|);
      } else {
        assert ChunksFrom(data, i, runs) == ChunksFrom(data, i + 1, runs);
      }
    } else {
      PassCountsNone(p);
    }
  }

  /** SendData: `ok` is false exactly when some upload of the pass got a
      non-success status, so transport exceptions never clear it; the counter
      ends equal to the number of transport exceptions; there is one upload
      per chunk plus at most 3 re-sends in the whole pass; and the pass sends
      nothing but uploads of this run under this key. */
  lemma SendDataEffect<T>(data: seq<T>, runId: string, apiKey: string, net: seq<Response>, log: seq<Event>)
    ensures var r := SendData(data, runId, apiKey, net, log);
      var t0, t1 := TallyOf(log), TallyOf(r.log);
      && (r.ok <==> t1.rejected == t0.rejected)
      && OnlyUploadsCounted(t0, t1)
      && t1.uploads == t0.uploads + ChunkCount(|data|) + Resends(r.retries)
      && t1.uploads <= t0.uploads + ChunkCount(|data|) + RetryLimit - 1
      && t1.lost == t0.lost + r.retries
      && Extends(log, r.log) && PassTraffic(r.log, |log|, runId, apiKey)
  {
    SliceEmptyIff(data, 0);
    ChunkShape(data);
    SendFromCounts(data, 0, Runs(|data|), runId, apiKey, Pass(true, 0, net, log));
    SendFromTraffic(data, 0, Runs(|data|), runId, apiKey, Pass(true, 0, net, log));
  }

  /** A chunk whose every send fails at the transport level is sent until the
      counter reaches the limit, and `ok` stays as it was. */
  lemma {:induction false} SendChunkAllLost(index: nat, records: nat, runId: string, apiKey: string, p: Pass)
    requires p.retries < RetryLimit
    requires forall k :: 0 <= k < |p.net| ==> p.net[k] == TransportError
    ensures SendChunk(index, records, runId, apiKey, p).retries == RetryLimit
    ensures SendChunk(index, records, runId, apiKey, p).ok == p.ok
    decreases RetryLimit - p.retries
  {
    var resp := Answer(p.net);
    assert resp == TransportError;
    if p.retries + 1 < RetryLimit {
      var sent := p.(net := Rest(p.net), log := p.log + [Exchange(Upload(index, records, runId, apiKey), resp)]);
      var failed := sent.(retries := sent.retries + 1, log := sent.log + [Pause(RetryPauseMillis)]);
      SendChunkAllLost(index, records, runId, apiKey, failed);
    }
  }

  /** A list of at most 900 records whose every upload fails at the transport
      level is sent 4 times in all, and the pass still reports success. */
  lemma LoneChunkSentFourTimes<T>(data: seq<T>, runId: string, apiKey: string, net: seq<Response>, log: seq<Event>)
    requires 0 < |data| <= MaxChunk
    requires forall k :: 0 <= k < |net| ==> net[k] == TransportError
    ensures var r := SendData(data, runId, apiKey, net, log);
      r.ok && r.retries == RetryLimit && TallyOf(r.log).uploads == TallyOf(log).uploads + RetryLimit
  {
    var p := Pass(true, 0, net, log);
    var d := Slice(data, 0);
    SliceEmptyIff(data, 0);
    SendChunkAllLost(0, |d|, runId, apiKey, p);
    SendFromPastData(data, 1, Runs(|data|), runId, apiKey, SendChunk(0, |d|, runId, apiKey, p));
    SendDataEffect(data, runId, apiKey, net, log);
  }
}

=== FILE: ExportModel.dfy ===
/** The exporter's run as functions of its state: log in, truncate the run
    identifier and try to start the batch run up to five times, send the
    records and stop after a successful start, and log out. A transport
    exception outside SendData escapes the run; it is the outcome Threw. */
module ExportModel {
  import opened Text
  import opened Http
  import opened Chunking
  import Delivery
  import opened BatchRun

  /** How a call ends: with a value, or with an exception that escapes it. */
  datatype Outcome<V> = Returned(value: V) | Threw

  /** The exporter's fields (`currentApiKey` as `apiKey`), the responses the
      client has still to give, and the history so far. */
  datatype State = State(
    batchV: nat,
    batchRunId: string,
    datetime: string,
    retry: nat,
    apiKey: string,
    net: seq<Response>,
    log: seq<Event>)

  /** A call's outcome and the state it leaves. */
  datatype Step<V> = Step(outcome: Outcome<V>, state: State)

  /** A failed start is retried while the bumped `_retry` is below this. */
  const StartLimit: nat := 5
  const StartRetryPauseMillis: nat := 30000
  const StopPauseMillis: nat := 5000
  /** The product every start and stop names. */
  const Product := "ID"

  /** A fresh exporter: `_batchV` 1, `_retry` 0, no key, and (for the
      identifier and timestamp that C# leaves null) empty strings. */
  function Initial(net: seq<Response>): State
  {
    State(1, "", "", 0, "", net, [])
  }

  /** The state after one request: one response consumed and the exchange
      recorded. */
  function Sent(s: State, req: Request): State
  {
    s.(net := Rest(s.net), log := s.log + [Exchange(req, Answer(s.net))])
  }

  /** POST /apikey: a success stores the body as the key and returns true;
      another status returns false and keeps the key; a transport
      exception escapes. */
  function GetApiKeyFromCredentials(s: State): (r: Step<bool>)
    ensures r.outcome == Returned(true) <==> Answer(s.net).Ok?
    ensures r.outcome.Threw? <==> Answer(s.net).TransportError?
    ensures r.outcome == Returned(true) ==> r.state.apiKey == Answer(s.net).body
    ensures r.outcome != Returned(true) ==> r.state.apiKey == s.apiKey
    ensures r.state.(apiKey := s.apiKey) == Sent(s, Credentials)
  {
    var t := Sent(s, Credentials);
    match Answer(s.net)
    case Ok(body) => Step(Returned(true), t.(apiKey := body))
    case TransportError => Step(Threw, t)
    case _ => Step(Returned(false), t)
  }

  /** The batch event `starting` sends for the current identifier. */
  function BatchEventOf(s: State, starting: bool, product: string): Request
  {
    BatchEvent(s.batchRunId, EventFormFor(starting, product, s.datetime, s.apiKey))
  }

  /** BatchStartStop: post a Start or End event for the current run
      identifier. A success returns true, another non-400 status false; on
      a 400 the version moves on by one, the identifier is rewritten and the
      event is posted again, with no cap but the responses there are. */
  function BatchStartStop(s: State, starting: bool, product: string, today: string): (r: Step<bool>)
    ensures r.state.retry == s.retry && r.state.apiKey == s.apiKey && r.state.datetime == s.datetime
    ensures r.state.batchV >= s.batchV
    ensures r.state.batchV == s.batchV ==> r.state.batchRunId == s.batchRunId
    ensures Extends(s.log, r.state.log) && |r.state.log| > |s.log|
    ensures r.state.log[|s.log|] == Exchange(BatchEventOf(s, starting, product), Answer(s.net))
    ensures |r.state.net| < |s.net| || r.state.net == []
    decreases |s.net|
  {
    var t := Sent(s, BatchEventOf(s, starting, product));
    match Answer(s.net)
    case Ok(_) => Step(Returned(true), t)
    case TransportError => Step(Threw, t)
    case OtherStatus => Step(Returned(false), t)
    case BadRequest =>
      var bumped := t.(batchV := t.batchV + 1, batchRunId := BumpedRunId(t.batchRunId, t.batchV, today));
      var r := BatchStartStop(bumped, starting, product, today);
      assert r.state.log[..|s.log|] == r.state.log[..|t.log|][..|s.log|];
      assert r.state.log[|s.log|] == r.state.log[..|t.log|][|s.log|];
      r
  }

  /** ProcessData: a non-empty record list is sent in one SendData pass
      under the current identifier and key; its result is not looked at. */
  function ProcessData<T>(s: State, data: seq<T>): (r: State)
    ensures r.(net := s.net, log := s.log) == s
    ensures |data| == 0 ==> r == s
  {
    if |data| == 0 then s
    else
      var p := Delivery.SendData(data, s.batchRunId, s.apiKey, s.net, s.log);
      s.(net := p.net, log := p.log)
  }

  /** The most start attempts a run whose `_retry` begins at `retry` makes. */
  function MaxAttempts(retry: nat): nat
  {
    if retry < StartLimit then StartLimit - retry else 1
  }

  /** How one turn of the `doOver:` loop ends: the call is over with
      `step`, or the loop goes round again from `state`. */
  datatype Turn = Done(step: Step<bool>) | Again(state: State)

  /** One turn of the `doOver:` loop: truncate the identifier (Substring
      throws when the cut is past its end), post Start; after a success send
      the records, pause 5 s and post End; after a failure pause 30 s, bump
      `_retry` and go round again while it is below 5. The value says
      whether a start succeeded. */
  function Attempt<T>(s: State, data: seq<T>, today: string): (r: Turn)
    ensures r.Again? ==> s.retry < r.state.retry < StartLimit
    ensures r.Again? ==> r.state.apiKey == s.apiKey && r.state.datetime == s.datetime
    ensures r.Done? ==> r.step.state.apiKey == s.apiKey && r.step.state.datetime == s.datetime
    ensures r.Done? ==> r.step.state.retry >= s.retry
    ensures r.Done? && r.step.outcome == Returned(false) ==> r.step.state.retry >= StartLimit
  {
    match Truncate(s.batchRunId)
    case None => Done(Step(Threw, s))
    case Some(cut) =>
      var start := BatchStartStop(s.(batchRunId := cut), true, Product, today);
      match start.outcome
      case Threw => Done(Step(Threw, start.state))
      case Returned(true) =>
        var sent := ProcessData(start.state, data);
        var paused := sent.(log := sent.log + [Pause(StopPauseMillis)]);
        var stop := BatchStartStop(paused, false, Product, today);
        Done(Step(if stop.outcome.Threw? then Threw else Returned(true), stop.state))
      case Returned(false) =>
        var failed := start.state.(retry := start.state.retry + 1,
                                   log := start.state.log + [Pause(StartRetryPauseMillis)]);
        if failed.retry < StartLimit then Again(failed) else Done(Step(Returned(false), failed))
  }

  /** The `doOver:` loop: turns until one is the last. */
  function StartAttempts<T>(s: State, data: seq<T>, today: string): (r: Step<bool>)
    ensures r.state.apiKey == s.apiKey && r.state.datetime == s.datetime
    ensures r.state.retry >= s.retry
    ensures r.outcome == Returned(false) ==> r.state.retry >= StartLimit
    decreases StartLimit - s.retry
  {
    match Attempt(s, data, today)
    case Done(step) => step
    case Again(next) => StartAttempts(next, data, today)
  }

  /** SendLogout: post the key to /apikey/logout and clear it whatever the
      status; a transport exception escapes before the key is cleared. */
  function SendLogout(s: State): (r: Step<string>)
    ensures r.outcome.Threw? <==> Answer(s.net).TransportError?
    ensures r.outcome.Returned? ==> r.state.apiKey == ""
    ensures r.outcome.Threw? ==> r.state.apiKey == s.apiKey
    ensures r.outcome.Returned? && !Answer(s.net).Ok? ==> r.outcome.value == ""
    ensures r.state.(apiKey := s.apiKey) == Sent(s, Logout(s.apiKey))
  {
    var t := Sent(s, Logout(s.apiKey));
    match Answer(s.net)
    case TransportError => Step(Threw, t)
    case Ok(body) => Step(Returned(body), t.(apiKey := ""))
    case _ => Step(Returned(""), t.(apiKey := ""))
  }

  /** DataLakeExport: nothing but the login unless the login succeeds; then
      the start attempts and, unless they threw, the logout. */
  function DataLakeExport<T>(s: State, data: seq<T>, today: string): (r: Step<()>)
    ensures !Answer(s.net).Ok? ==> r.state.log == s.log + [Exchange(Credentials, Answer(s.net))]
    ensures !Answer(s.net).Ok? ==> r.state.apiKey == s.apiKey
    ensures Answer(s.net).TransportError? ==> r.outcome.Threw?
  {
    var login := GetApiKeyFromCredentials(s);
    match login.outcome
    case Threw => Step(Threw, login.state)
    case Returned(false) => Step(Returned(()), login.state)
    case Returned(true) =>
      var run := StartAttempts(login.state, data, today);
      if run.outcome.Threw? then Step(Threw, run.state)
      else
        var out := SendLogout(run.state);
        Step(if out.outcome.Threw? then Threw else Returned(()), out.state)
  }

  /** RunDataLakeExporter: stamp the run with `now`, name it
      `GPE-{today}-v{_batchV}`, and export. `now` and `today` stand for the
      clock readings. */
  function RunDataLakeExporter<T>(s: State, data: seq<T>, now: string, today: string): (r: Step<()>)
  {
    DataLakeExport(s.(datetime := now, batchRunId := RunId(BatchName, today, s.batchV)), data, today)
  }
}

=== FILE: ExportProperties.dfy ===
/** What a run of the exporter does to the history: how many requests of
    each kind it sends, and in what states it leaves the version, the retry
    counter and the key. */
module ExportProperties {
  import opened Text
  import opened Http
  import opened Chunking
  import Delivery
  import opened BatchRun
  import opened ExportModel

  /** A batch event is one conflict if answered 400 and otherwise ends one
      start or stop, a success or a refusal according to its response. */
  lemma BatchEventCounted(log: seq<Event>, e: Event)
    requires e.Exchange? && e.request.BatchEvent?
    ensures var t0, t1 := TallyOf(log), TallyOf(log + [e]);
      var start, resp := e.request.form.eventType == "Start", e.response;
      && t1.logins == t0.logins && t1.logouts == t0.logouts
      && t1.uploads == t0.uploads && t1.rejected == t0.rejected && t1.lost == t0.lost
      && t1.conflicts == t0.conflicts + Bit(resp.BadRequest?)
      && t1.starts == t0.starts + Bit(start && !resp.BadRequest?)
      && t1.stops == t0.stops + Bit(!start && !resp.BadRequest?)
      && t1.started == t0.started + Bit(start && resp.Ok?)
      && t1.startRefused == t0.startRefused + Bit(start && resp.OtherStatus?)
  {
    TallySnoc(log, e);
  }

  /** From `s` to `r` one BatchStartStop call met one 400 per version step and
      then one final answer, and sent nothing else. */
  predicate StartStopCounts(s: State, starting: bool, r: Step<bool>)
  {
    var t0, t1 := TallyOf(s.log), TallyOf(r.state.log);
    && t1.logins == t0.logins && t1.logouts == t0.logouts
    && t1.uploads == t0.uploads && t1.rejected == t0.rejected && t1.lost == t0.lost
    && t0.conflicts <= t1.conflicts
    && r.state.batchV == s.batchV + (t1.conflicts - t0.conflicts)
    && t1.starts == t0.starts + Bit(starting)
    && t1.stops == t0.stops + Bit(!starting)
    && t1.started == t0.started + Bit(starting && r.outcome == Returned(true))
    && t1.startRefused == t0.startRefused + Bit(starting && r.outcome == Returned(false))
  }

  /** Each 400 raises `_batchV` by exactly one; a call ends with exactly one
      answer other than 400, which counts as its start or stop; a start
      returns true exactly on a success and false exactly on another status. */
  lemma {:induction false} BatchStartStopCounts(s: State, starting: bool, product: string, today: string)
    ensures StartStopCounts(s, starting, BatchStartStop(s, starting, product, today))
    decreases |s.net|
  {
    var e := Exchange(BatchEventOf(s, starting, product), Answer(s.net));
    BatchEventCounted(s.log, e);
    var t := Sent(s, BatchEventOf(s, starting, product));
    assert t.log == s.log + [e];
    if Answer(s.net).BadRequest? {
      var bumped := t.(batchV := t.batchV + 1, batchRunId := BumpedRunId(t.batchRunId, t.batchV, today));
      BatchStartStopCounts(bumped, starting, product, today);
    }
  }

  /** A 400 makes the call go on as a call from the bumped state. */
  lemma Retried(s: State, starting: bool, product: string, today: string) returns (next: State)
    requires Answer(s.net).BadRequest?
    ensures BatchStartStop(s, starting, product, today) == BatchStartStop(next, starting, product, today)
    ensures next == Sent(s, BatchEventOf(s, starting, product)).(batchV := s.batchV + 1, batchRunId := BumpedRunId(s.batchRunId, s.batchV, today))
  {
    next := Sent(s, BatchEventOf(s, starting, product)).(batchV := s.batchV + 1, batchRunId := BumpedRunId(s.batchRunId, s.batchV, today));
  }

  /** A 400 for a non-backfill identifier: the call goes on as a call from
      the next version under the identifier generated for today, one
      response further on. */
  lemma ConflictStep(s: State, starting: bool, product: string, today: string) returns (next: State)
    requires Answer(s.net).BadRequest?
    requires !Contains(s.batchRunId, BackfillMark) && 'b' !in today
    ensures BatchStartStop(s, starting, product, today) == BatchStartStop(next, starting, product, today)
    ensures next.batchV == s.batchV + 1 && next.batchRunId == RunId(BatchName, today, s.batchV + 1)
    ensures !Contains(next.batchRunId, BackfillMark) && next.net == s.net[1..]
  {
    var id := BumpedRunId(s.batchRunId, s.batchV, today);
    assert id == RunId(BatchName, today, s.batchV + 1) && !Contains(id, BackfillMark) by {
      BumpedRunIdVersion(s.batchRunId, s.batchV, today);
    }
    next := Retried(s, starting, product, today);
  }

  /** An answer other than 400 ends the call: the version and identifier
      stay, and the outcome follows the answer. */
  lemma FinalAnswer(s: State, starting: bool, product: string, today: string)
    requires |s.net| > 0 && !s.net[0].BadRequest?
    ensures var r := BatchStartStop(s, starting, product, today);
      && r.state.batchV == s.batchV && r.state.batchRunId == s.batchRunId
      && r.state.net == s.net[1..]
      && (r.outcome == Returned(true) <==> s.net[0].Ok?)
      && (r.outcome == Returned(false) <==> s.net[0].OtherStatus?)
      && (r.outcome.Threw? <==> s.net[0].TransportError?)
  {
  }

  /** What a call from `s` that met `n` answers of 400 and then `s.net[n]`
      leaves, for a non-backfill identifier. */
  predicate AfterConflicts(s: State, today: string, n: nat, r: Step<bool>)
    requires n < |s.net|
  {
    && r.state.batchV == s.batchV + n
    && r.state.batchRunId == (if n == 0 then s.batchRunId else RunId(BatchName, today, s.batchV + n))
    && r.state.net == s.net[n + 1..]
    && (r.outcome == Returned(true) <==> s.net[n].Ok?)
    && (r.outcome == Returned(false) <==> s.net[n].OtherStatus?)
    && (r.outcome.Threw? <==> s.net[n].TransportError?)
  }

  /** One more 400 in front: version and identifier one step further. */
  lemma AfterOneMoreConflict(s: State, next: State, today: string, n: nat, r: Step<bool>)
    requires 0 < n < |s.net|
    requires next.batchV == s.batchV + 1 && next.batchRunId == RunId(BatchName, today, s.batchV + 1)
    requires next.net == s.net[1..]
    requires AfterConflicts(next, today, n - 1, r)
    ensures AfterConflicts(s, today, n, r)
  {
    assert next.net[n - 1] == s.net[n];
    assert next.batchV + (n - 1) == s.batchV + n;
    assert next.net[n..] == s.net[n + 1..];
  }

  /** The first `n` responses are 400s and the one after them is not. */
  predicate ConflictsFirst(net: seq<Response>, n: nat)
  {
    n < |net| && !net[n].BadRequest? && forall k :: 0 <= k < n ==> net[k] == BadRequest
  }

  /** Without its first 400, a script has one 400 fewer in front. */
  lemma ConflictsFirstRest(net: seq<Response>, n: nat)
    requires ConflictsFirst(net, n) && n > 0
    ensures net[0] == BadRequest && ConflictsFirst(net[1..], n - 1)
  {
    assert forall k :: 0 <= k < n - 1 ==> net[1..][k] == net[k + 1];
  }

  /** With `n` answers of 400 before a final answer, a non-backfill run
      ends at version `_batchV + n` under the identifier generated for
      today, and returns according to the final answer. */
  lemma {:induction false} ConflictsThenAnswer(s: State, starting: bool, product: string, today: string, n: nat)
    requires ConflictsFirst(s.net, n)
    requires !Contains(s.batchRunId, BackfillMark) && 'b' !in today
    ensures AfterConflicts(s, today, n, BatchStartStop(s, starting, product, today))
    decreases n, 1
  {
    if n == 0 {
      FinalAnswer(s, starting, product, today);
    } else {
      ConflictThenAnswer(s, starting, product, today, n);
    }
  }

  /** The case of ConflictsThenAnswer with a 400 in front. */
  lemma {:induction false} ConflictThenAnswer(s: State, starting: bool, product: string, today: string, n: nat)
    requires ConflictsFirst(s.net, n) && n > 0
    requires !Contains(s.batchRunId, BackfillMark) && 'b' !in today
    ensures AfterConflicts(s, today, n, BatchStartStop(s, starting, product, today))
    decreases n, 0
  {
    ConflictsFirstRest(s.net, n);
    var next := ConflictStep(s, starting, product, today);
    ConflictsThenAnswer(next, starting, product, today, n - 1);
    AfterOneMoreConflict(s, next, today, n, BatchStartStop(next, starting, product, today));
  }

  /** A SendData pass of ProcessData: one upload per chunk plus at most
      3 re-sends, and nothing else. */
  lemma ProcessDataCounts<T>(s: State, data: seq<T>)
    ensures var t0, t1 := TallyOf(s.log), TallyOf(ProcessData(s, data).log);
      && Delivery.OnlyUploadsCounted(t0, t1)
      && t0.uploads + ChunkCount(|data|) <= t1.uploads <= t0.uploads + ChunkCount(|data|) + Delivery.RetryLimit - 1
      && Extends(s.log, ProcessData(s, data).log)
  {
    if |data| > 0 {
      Delivery.SendDataEffect(data, s.batchRunId, s.apiKey, s.net, s.log);
    } else {
      assert s.log[..|s.log|] == s.log;
    }
  }

  /** From `s` to `r` the start attempts sent no login or logout; at most
      MaxAttempts starts, of which each refusal bumped `_retry`; at most one
      success, followed by exactly one stop, and uploads only after it. */
  predicate AttemptsCounts<T>(s: State, data: seq<T>, r: Step<bool>)
  {
    var t0, t1 := TallyOf(s.log), TallyOf(r.state.log);
    && t1.logins == t0.logins && t1.logouts == t0.logouts
    && t0.conflicts <= t1.conflicts && r.state.batchV == s.batchV + (t1.conflicts - t0.conflicts)
    && t0.starts <= t1.starts <= t0.starts + MaxAttempts(s.retry)
    && (r.outcome.Returned? ==> t0.starts < t1.starts)
    && t0.startRefused <= t1.startRefused && r.state.retry == s.retry + (t1.startRefused - t0.startRefused)
    && t0.started <= t1.started <= t0.started + 1
    && t0.stops <= t1.stops && t1.stops - t0.stops == t1.started - t0.started
    && (r.outcome == Returned(true) ==> t1.started == t0.started + 1)
    && (r.outcome == Returned(false) ==> t1.started == t0.started)
    && (t1.started == t0.started ==> t1.uploads == t0.uploads)
    && (t1.started > t0.started ==>
          t0.uploads + ChunkCount(|data|) <= t1.uploads <= t0.uploads + ChunkCount(|data|) + Delivery.RetryLimit - 1)
    && Extends(s.log, r.state.log)
  }

  /** The state a start attempt posts from: the identifier truncated. */
  function Truncated(s: State): State
    requires Truncate(s.batchRunId).Some?
  {
    s.(batchRunId := Truncate(s.batchRunId).value)
  }

  /** From `s` to `next` one start was refused, after at most some 400s,
      and `_retry` went up by one; nothing else was sent. */
  predicate RefusalCounts(s: State, next: State)
  {
    var t0, t1 := TallyOf(s.log), TallyOf(next.log);
    && t1.logins == t0.logins && t1.logouts == t0.logouts
    && t0.conflicts <= t1.conflicts && next.batchV == s.batchV + (t1.conflicts - t0.conflicts)
    && t1.starts == t0.starts + 1 && t1.startRefused == t0.startRefused + 1
    && next.retry == s.retry + 1
    && t1.started == t0.started && t1.stops == t0.stops && t1.uploads == t0.uploads
    && Extends(s.log, next.log)
  }

  /** A successful start, a pass that sent only uploads, a pause and a
      stop add up to one successful attempt. */
  lemma SuccessCompose<T>(s: State, data: seq<T>, from: State, start: Step<bool>, sent: State, paused: State, stop: Step<bool>)
    requires from.log == s.log && from.batchV == s.batchV && from.retry == s.retry
    requires StartStopCounts(from, true, start) && start.outcome == Returned(true)
    requires Extends(s.log, start.state.log) && start.state.retry == s.retry
    requires var t0, t1 := TallyOf(start.state.log), TallyOf(sent.log);
      && Delivery.OnlyUploadsCounted(t0, t1)
      && t0.uploads + ChunkCount(|data|) <= t1.uploads <= t0.uploads + ChunkCount(|data|) + Delivery.RetryLimit - 1
    requires Extends(start.state.log, sent.log) && sent.batchV == start.state.batchV && sent.retry == s.retry
    requires TallyOf(paused.log) == TallyOf(sent.log) && Extends(sent.log, paused.log)
    requires paused.batchV == sent.batchV && paused.retry == s.retry
    requires StartStopCounts(paused, false, stop) && Extends(paused.log, stop.state.log) && stop.state.retry == s.retry
    ensures AttemptsCounts(s, data, Step(if stop.outcome.Threw? then Threw else Returned(true), stop.state))
  {
    ExtendsTrans(s.log, start.state.log, sent.log);
    ExtendsTrans(s.log, sent.log, paused.log);
    ExtendsTrans(s.log, paused.log, stop.state.log);
  }

  /** After a successful start: the pass, the pause and one stop. */
  lemma AfterStartCounts<T>(s: State, data: seq<T>, today: string, r: Step<bool>)
    requires Truncate(s.batchRunId).Some?
    requires BatchStartStop(Truncated(s), true, Product, today).outcome == Returned(true)
    requires var sent := ProcessData(BatchStartStop(Truncated(s), true, Product, today).state, data);
      var paused := sent.(log := sent.log + [Pause(StopPauseMillis)]);
      var stop := BatchStartStop(paused, false, Product, today);
      r == Step(if stop.outcome.Threw? then Threw else Returned(true), stop.state)
    ensures AttemptsCounts(s, data, r)
  {
    var start := BatchStartStop(Truncated(s), true, Product, today);
    var sent := ProcessData(start.state, data);
    var paused := sent.(log := sent.log + [Pause(StopPauseMillis)]);
    var stop := BatchStartStop(paused, false, Product, today);
    BatchStartStopCounts(Truncated(s), true, Product, today);
    ProcessDataCounts(start.state, data);
    PauseCounted(sent.log, StopPauseMillis);
    assert Extends(sent.log, paused.log);
    BatchStartStopCounts(paused, false, Product, today);
    SuccessCompose(s, data, Truncated(s), start, sent, paused, stop);
  }

  /** A Start event (`starting`) or an End event (`!starting`) for a batch run. */
  predicate IsBatchEvent(e: Event, starting: bool)
  {
    e.Exchange? && e.request.BatchEvent? &&
    e.request.form.eventType == (if starting then "Start" else "End")
  }

  /** Everything from index `from` of `log` on is a batch event of one kind. */
  predicate BatchTraffic(log: seq<Event>, from: nat, starting: bool)
  {
    forall k :: from <= k < |log| ==> IsBatchEvent(log[k], starting)
  }

  /** BatchStartStop sends Start events only, or End events only: the first
      and every one re-posted after a 400. */
  lemma {:induction false} BatchStartStopTraffic(s: State, starting: bool, product: string, today: string)
    ensures BatchTraffic(BatchStartStop(s, starting, product, today).state.log, |s.log|, starting)
    decreases |s.net|
  {
    var log := BatchStartStop(s, starting, product, today).state.log;
    assert IsBatchEvent(log[|s.log|], starting);
    if Answer(s.net).BadRequest? {
      var next := Retried(s, starting, product, today);
      BatchStartStopTraffic(next, starting, product, today);
      BatchTrafficCons(log, |s.log|, starting);
    }
  }

  /** One batch event in front of batch traffic of its kind. */
  lemma BatchTrafficCons(log: seq<Event>, from: nat, starting: bool)
    requires from < |log| && IsBatchEvent(log[from], starting)
    requires BatchTraffic(log, from + 1, starting)
    ensures BatchTraffic(log, from, starting)
  {
  }

  /** The shape of a successful turn's history after index `from`: Start
      events up to `i`, then pass traffic of run `runId` under `apiKey` up to
      `j`, then the 5 s pause at `j`, then at least one End event and nothing
      else. */
  predicate StartSendStop(log: seq<Event>, from: nat, i: nat, j: nat, runId: string, apiKey: string)
  {
    && from < i <= j && j + 1 < |log|
    && (forall k :: from <= k < i ==> IsBatchEvent(log[k], true))
    && (forall k :: i <= k < j ==> Delivery.IsPassEvent(log[k], runId, apiKey))
    && log[j] == Pause(StopPauseMillis)
    && (forall k :: j < k < |log| ==> IsBatchEvent(log[k], false))
  }

  /** A turn whose start succeeds posts its Start events, then sends the
      records under the identifier the start ended with and the current key,
      then pauses 5 s, and only then posts End events. */
  lemma SuccessfulTurnOrder<T>(s: State, data: seq<T>, today: string)
    requires Truncate(s.batchRunId).Some?
    requires BatchStartStop(Truncated(s), true, Product, today).outcome == Returned(true)
    ensures Attempt(s, data, today).Done?
    ensures var start := BatchStartStop(Truncated(s), true, Product, today);
      var sent := ProcessData(start.state, data);
      var log := Attempt(s, data, today).step.state.log;
      && Extends(s.log, log)
      && StartSendStop(log, |s.log|, |start.state.log|, |sent.log|, start.state.batchRunId, s.apiKey)
  {
    var start := BatchStartStop(Truncated(s), true, Product, today);
    var sent := ProcessData(start.state, data);
    var paused := sent.(log := sent.log + [Pause(StopPauseMillis)]);
    var stop := BatchStartStop(paused, false, Product, today);
    var log := stop.state.log;
    assert Attempt(s, data, today) == Done(Step(if stop.outcome.Threw? then Threw else Returned(true), stop.state));
    BatchStartStopTraffic(Truncated(s), true, Product, today);
    BatchStartStopTraffic(paused, false, Product, today);
    if |data| > 0 {
      Delivery.SendDataEffect(data, start.state.batchRunId, start.state.apiKey, start.state.net, start.state.log);
    } else {
      assert start.state.log[..|start.state.log|] == start.state.log;
    }
    assert Extends(sent.log, paused.log) && paused.log[|sent.log|] == Pause(StopPauseMillis);
    ExtendsTrans(sent.log, paused.log, log);
    ExtendsTrans(start.state.log, sent.log, log);
    assert log[..|paused.log|][|sent.log|] == log[|sent.log|];
    ShapeOfTurn(s.log, start.state.log, sent.log, log, start.state.batchRunId, s.apiKey);
  }

  /** Start traffic, then pass traffic, then the pause, then stop traffic,
      each appended to the history before it, make the shape of a turn. */
  lemma ShapeOfTurn(before: seq<Event>, started: seq<Event>, sent: seq<Event>, log: seq<Event>, runId: string, apiKey: string)
    requires Extends(before, started) && |before| < |started| && BatchTraffic(started, |before|, true)
    requires Extends(started, log) && Extends(sent, log) && |started| <= |sent|
    requires Delivery.PassTraffic(sent, |started|, runId, apiKey)
    requires |sent| + 1 < |log| && log[|sent|] == Pause(StopPauseMillis)
    requires BatchTraffic(log, |sent| + 1, false)
    ensures Extends(before, log)
    ensures StartSendStop(log, |before|, |started|, |sent|, runId, apiKey)
  {
    ExtendsTrans(before, started, log);
    forall k | |before| <= k < |started| ensures IsBatchEvent(log[k], true) {
      assert log[..|started|][k] == log[k];
    }
    forall k | |started| <= k < |sent| ensures Delivery.IsPassEvent(log[k], runId, apiKey) {
      assert log[..|sent|][k] == log[k];
    }
  }

  /** In the shape of a turn, every upload comes before every End event. */
  lemma ShapeOrdersUploads(log: seq<Event>, from: nat, i: nat, j: nat, runId: string, apiKey: string)
    requires StartSendStop(log, from, i, j, runId, apiKey)
    ensures forall k, m ::
      (from <= k < |log| && from <= m < |log| &&
       log[k].Exchange? && log[k].request.Upload? && IsBatchEvent(log[m], false)) ==> k < m
  {
  }

  /** Within a successful turn, every upload comes before every End event. */
  lemma UploadsBeforeStop<T>(s: State, data: seq<T>, today: string)
    requires Truncate(s.batchRunId).Some?
    requires BatchStartStop(Truncated(s), true, Product, today).outcome == Returned(true)
    ensures var log := Attempt(s, data, today).step.state.log;
      forall k, m ::
        (|s.log| <= k < |log| && |s.log| <= m < |log| &&
         log[k].Exchange? && log[k].request.Upload? && IsBatchEvent(log[m], false)) ==> k < m
  {
    SuccessfulTurnOrder(s, data, today);
    var start := BatchStartStop(Truncated(s), true, Product, today);
    ShapeOrdersUploads(Attempt(s, data, today).step.state.log, |s.log|, |start.state.log|,
                       |ProcessData(start.state, data).log|, start.state.batchRunId, s.apiKey);
  }

  /** A refused start: the start, the pause and the bumped counter. */
  lemma RefusedStartCounts(s: State, today: string, failed: State)
    requires Truncate(s.batchRunId).Some?
    requires BatchStartStop(Truncated(s), true, Product, today).outcome == Returned(false)
    requires var start := BatchStartStop(Truncated(s), true, Product, today);
      failed == start.state.(retry := start.state.retry + 1,
                             log := start.state.log + [Pause(StartRetryPauseMillis)])
    ensures RefusalCounts(s, failed)
  {
    var start := BatchStartStop(Truncated(s), true, Product, today);
    BatchStartStopCounts(Truncated(s), true, Product, today);
    PauseCounted(start.state.log, StartRetryPauseMillis);
    ExtendsTrans(s.log, start.state.log, failed.log);
  }

  /** The refusal that brings `_retry` to 5 ends the loop with false. */
  lemma LastRefusalCounts<T>(s: State, data: seq<T>, failed: State)
    requires RefusalCounts(s, failed) && failed.retry >= StartLimit
    ensures AttemptsCounts(s, data, Step(Returned(false), failed))
  {
  }

  /** A refusal followed by the attempts from the state it leaves. */
  lemma RefusalThenAttempts<T>(s: State, data: seq<T>, next: State, r: Step<bool>)
    requires RefusalCounts(s, next) && next.retry < StartLimit
    requires AttemptsCounts(next, data, r)
    ensures AttemptsCounts(s, data, r)
  {
    ExtendsTrans(s.log, next.log, r.state.log);
  }

  /** A start that threw: one start counted, and nothing else. */
  lemma ThrownStartCounts<T>(s: State, data: seq<T>, today: string, r: Step<bool>)
    requires Truncate(s.batchRunId).Some?
    requires BatchStartStop(Truncated(s), true, Product, today).outcome.Threw?
    requires r == Step(Threw, BatchStartStop(Truncated(s), true, Product, today).state)
    ensures AttemptsCounts(s, data, r)
  {
    BatchStartStopCounts(Truncated(s), true, Product, today);
  }

  /** An identifier Substring cannot cut: the attempt throws having sent nothing. */
  lemma UntruncatableCounts<T>(s: State, data: seq<T>, today: string)
    requires Truncate(s.batchRunId).None?
    ensures Attempt(s, data, today) == Done(Step(Threw, s))
    ensures StartAttempts(s, data, today) == Step(Threw, s)
    ensures AttemptsCounts(s, data, Step(Threw, s))
  {
    assert s.log[..|s.log|] == s.log;
  }

  /** One turn of the `doOver:` loop either ends the loop, counted as the
      whole loop is, or is a refusal after which the loop goes round again. */
  lemma TurnCounts<T>(s: State, data: seq<T>, today: string)
    ensures match Attempt(s, data, today)
      case Done(step) => AttemptsCounts(s, data, step)
      case Again(next) => RefusalCounts(s, next)
  {
    var turn := Attempt(s, data, today);
    if Truncate(s.batchRunId).None? {
      UntruncatableCounts(s, data, today);
    } else {
      var start := BatchStartStop(Truncated(s), true, Product, today);
      if start.outcome == Returned(true) {
        AfterStartCounts(s, data, today, turn.step);
      } else if start.outcome == Returned(false) {
        var failed := start.state.(retry := start.state.retry + 1,
                                   log := start.state.log + [Pause(StartRetryPauseMillis)]);
        RefusedStartCounts(s, today, failed);
        if failed.retry < StartLimit {
          assert turn == Again(failed);
        } else {
          assert turn == Done(Step(Returned(false), failed));
          LastRefusalCounts(s, data, failed);
        }
      } else {
        ThrownStartCounts(s, data, today, turn.step);
      }
    }
  }

  /** The `doOver:` loop makes at most 5 - `_retry` start attempts (one when
      `_retry` is already 5 or more), bumps `_retry` once per refusal and
      never otherwise, and after a success sends the records and stops. */
  lemma {:induction false} AttemptsCountsHold<T>(s: State, data: seq<T>, today: string)
    ensures AttemptsCounts(s, data, StartAttempts(s, data, today))
    decreases StartLimit - s.retry
  {
    TurnCounts(s, data, today);
    match Attempt(s, data, today)
    case Done(step) =>
    case Again(next) =>
      AttemptsCountsHold(next, data, today);
      RefusalThenAttempts(s, data, next, StartAttempts(next, data, today));
  }

  /** Unless the login succeeds, the run sends the credentials request and
      nothing else: no start, no upload, no logout, and the key is kept. */
  lemma LoginGate<T>(s: State, data: seq<T>, today: string)
    requires !Answer(s.net).Ok?
    ensures var r := DataLakeExport(s, data, today);
      var t0 := TallyOf(s.log);
      && TallyOf(r.state.log) == t0.(logins := t0.logins + 1)
      && r.state.apiKey == s.apiKey
      && (r.outcome.Threw? <==> Answer(s.net).TransportError?)
  {
    var login := GetApiKeyFromCredentials(s);
    assert DataLakeExport(s, data, today) == Step(if login.outcome.Threw? then Threw else Returned(()), login.state);
    LoginCounted(s.log, Answer(s.net));
  }

  /** After a successful login: one login; the start attempts with their
      bounds; and exactly when the attempts did not throw, one logout, sent
      last with the key the login returned. The run returns unless the
      attempts or the logout threw, and then the key is "". */
  lemma {:induction false} ExportCounts<T>(s: State, data: seq<T>, today: string)
    requires Answer(s.net).Ok?
    ensures var r := DataLakeExport(s, data, today);
      var run := StartAttempts(GetApiKeyFromCredentials(s).state, data, today);
      var t0, t1 := TallyOf(s.log), TallyOf(r.state.log);
      && t1.logins == t0.logins + 1
      && t1.logouts == t0.logouts + Bit(run.outcome.Returned?)
      && (run.outcome.Threw? ==> r.outcome.Threw?)
      && (run.outcome.Returned? ==>
            && t0.starts < t1.starts
            && r.state.log[|r.state.log| - 1].request == Logout(Answer(s.net).body)
            && (r.outcome.Returned? <==> !Answer(run.state.net).TransportError?))
      && (r.outcome.Returned? ==> r.state.apiKey == "")
      && t0.starts <= t1.starts <= t0.starts + MaxAttempts(s.retry)
      && t0.startRefused <= t1.startRefused && r.state.retry == s.retry + (t1.startRefused - t0.startRefused)
      && t0.started <= t1.started <= t0.started + 1
      && t0.stops <= t1.stops && t1.stops - t0.stops == t1.started - t0.started
      && (t1.started == t0.started ==> t1.uploads == t0.uploads)
      && t0.conflicts <= t1.conflicts && r.state.batchV == s.batchV + (t1.conflicts - t0.conflicts)
  {
    var login := GetApiKeyFromCredentials(s);
    LoginCounted(s.log, Answer(s.net));
    var run := StartAttempts(login.state, data, today);
    AttemptsCountsHold(login.state, data, today);
    if run.outcome.Returned? {
      LogoutCounted(run.state.log, run.state.apiKey, Answer(run.state.net));
    }
  }

  /** While `_retry` is below 5 and every start is refused, the loop makes
      one attempt per remaining step of the counter and ends false with
      `_retry` at 5 and the version unchanged. */
  lemma {:induction false} RefusedEveryTime<T>(s: State, data: seq<T>, today: string)
    requires s.retry < StartLimit && Truncate(s.batchRunId).Some?
    requires StartLimit - s.retry <= |s.net|
    requires forall k :: 0 <= k < StartLimit - s.retry ==> s.net[k] == OtherStatus
    ensures var r := StartAttempts(s, data, today);
      && r.outcome == Returned(false)
      && r.state.retry == StartLimit
      && r.state.batchV == s.batchV
      && r.state.net == s.net[StartLimit - s.retry..]
    decreases StartLimit - s.retry
  {
    var s0 := Truncated(s);
    assert Answer(s0.net) == OtherStatus;
    var start := BatchStartStop(s0, true, Product, today);
    assert start == Step(Returned(false), Sent(s0, BatchEventOf(s0, true, Product)));
    var failed := start.state.(retry := start.state.retry + 1,
                               log := start.state.log + [Pause(StartRetryPauseMillis)]);
    assert failed.net == s.net[1..];
    if failed.retry < StartLimit {
      TruncateIdempotent(s.batchRunId);
      RefusedEveryTime(failed, data, today);
      assert s.net[1..][StartLimit - failed.retry..] == s.net[StartLimit - s.retry..];
    }
  }

  /** A fresh exporter whose five starts are all refused: one login, five
      refused starts, no upload and no stop, `_retry` at 5 and the version
      still 1; then exactly one logout, which clears the key unless it
      throws. */
  lemma RefusedRun<T>(net: seq<Response>, data: seq<T>, now: string, today: string)
    requires |net| > StartLimit && net[0].Ok?
    requires forall k :: 1 <= k <= StartLimit ==> net[k] == OtherStatus
    ensures var r := RunDataLakeExporter(Initial(net), data, now, today);
      var t := TallyOf(r.state.log);
      && t.logins == 1 && t.starts == StartLimit && t.startRefused == StartLimit
      && t.started == 0 && t.stops == 0 && t.uploads == 0
      && r.state.retry == StartLimit && r.state.batchV == 1
      && (r.outcome.Returned? <==> !Answer(net[StartLimit + 1..]).TransportError?)
      && t.logouts == 1
      && (r.outcome.Returned? ==> r.state.apiKey == "")
  {
    var s := Initial(net).(datetime := now, batchRunId := RunId(BatchName, today, 1));
    var login := GetApiKeyFromCredentials(s);
    assert login.state.net == net[1..];
    RefusedEveryTime(login.state, data, today);
    assert net[1..][StartLimit..] == net[StartLimit + 1..];
    ExportCounts(s, data, today);
    var r := DataLakeExport(s, data, today);
    StartOutcomesWithinStarts(r.state.log);
  }

  /** One turn's history extends what its start left. */
  lemma TurnExtendsStart<T>(s: State, data: seq<T>, today: string)
    requires Truncate(s.batchRunId).Some?
    ensures var start := BatchStartStop(Truncated(s), true, Product, today);
      match Attempt(s, data, today)
      case Done(step) => Extends(start.state.log, step.state.log)
      case Again(next) => Extends(start.state.log, next.log)
  {
    var start := BatchStartStop(Truncated(s), true, Product, today);
    if start.outcome == Returned(true) {
      var sent := ProcessData(start.state, data);
      var paused := sent.(log := sent.log + [Pause(StopPauseMillis)]);
      var stop := BatchStartStop(paused, false, Product, today);
      ProcessDataCounts(start.state, data);
      ExtendsTrans(start.state.log, sent.log, paused.log);
      ExtendsTrans(start.state.log, paused.log, stop.state.log);
    } else if start.outcome == Returned(false) {
      assert Extends(start.state.log, start.state.log + [Pause(StartRetryPauseMillis)]);
    } else {
      assert start.state.log[..|start.state.log|] == start.state.log;
    }
  }

  /** The first request of the `doOver:` loop is the Start event for the
      truncated identifier. */
  lemma FirstStartLogged<T>(s: State, data: seq<T>, today: string)
    requires Truncate(s.batchRunId).Some?
    ensures var r := StartAttempts(s, data, today);
      && |r.state.log| > |s.log|
      && r.state.log[|s.log|] == Exchange(BatchEventOf(Truncated(s), true, Product), Answer(s.net))
  {
    var start := BatchStartStop(Truncated(s), true, Product, today);
    var r := StartAttempts(s, data, today);
    TurnExtendsStart(s, data, today);
    match Attempt(s, data, today)
    case Done(step) =>
      assert r == step;
    case Again(next) =>
      AttemptsCountsHold(next, data, today);
      ExtendsTrans(start.state.log, next.log, r.state.log);
    assert r.state.log[|s.log|] == r.state.log[..|start.state.log|][|s.log|];
  }

  /** The first start of a fresh run posts to the identifier truncated to
      "GP", not to `GPE-{today}-v1`, when `today` holds no '_'. */
  lemma FirstStartTargetsGP<T>(net: seq<Response>, data: seq<T>, now: string, today: string)
    requires '_' !in today && |net| >= 2 && net[0].Ok?
    ensures var r := RunDataLakeExporter(Initial(net), data, now, today);
      && |r.state.log| >= 2
      && r.state.log[0] == Exchange(Credentials, net[0])
      && r.state.log[1] == Exchange(BatchEvent("GP", EventFormFor(true, Product, now, net[0].body)), net[1])
  {
    var s := Initial(net).(datetime := now, batchRunId := RunId(BatchName, today, 1));
    TruncateRunId(today, 1);
    var login := GetApiKeyFromCredentials(s);
    assert login.state.log == [Exchange(Credentials, net[0])] && login.state.net == net[1..];
    FirstStartLogged(login.state, data, today);
    var run := StartAttempts(login.state, data, today);
    var r := DataLakeExport(s, data, today);
    assert r.state.log[..|run.state.log|] == run.state.log by {
      if !run.outcome.Threw? {
        var out := SendLogout(run.state);
        assert r.state.log == run.state.log + [Exchange(Logout(run.state.apiKey), Answer(run.state.net))];
      }
    }
    assert r.state.log[0] == run.state.log[0] && r.state.log[1] == run.state.log[1];
    assert run.state.log[0] == login.state.log[0] by {
      AttemptsCountsHold(login.state, data, today);
      assert run.state.log[..1] == login.state.log;
    }
  }
}

=== FILE: Exporter.dfy ===
/** The exporter object. Its fields are updated in place by its methods, and
    each method leaves the object, and returns, what the ExportModel or
    Delivery function it mirrors gives for the state before the call:
    SendChunk and SendData mirror the Delivery functions of those names,
    SendIndex mirrors Delivery.Next, and Post, which has no function
    counterpart, states its effect directly. */
module Exporter {
  import opened Text
  import opened Http
  import opened Chunking
  import Delivery
  import opened BatchRun
  import opened ExportModel

  class DatalakeExporter {
    /** The responses `_client` will give, in order. */
    var net: seq<Response>
    /** Every request with its response, and every pause, in order. */
    ghost var log: seq<Event>
    /** `currentApiKey` (a static field; one exporter is modelled). */
    var currentApiKey: string
    var batchRunId: string
    var datetime: string
    var retry: nat
    var batchV: nat

    /** The fields as a value. */
    ghost function Model(): State
      reads this
    {
      State(batchV, batchRunId, datetime, retry, currentApiKey, net, log)
    }

    /** `_batchV` starts at 1 and `_retry` at 0, with no key. */
    constructor(responses: seq<Response>)
      ensures Model() == Initial(responses)
    {
      net := responses;
      log := [];
      currentApiKey := "";
      batchRunId := "";
      datetime := "";
      retry := 0;
      batchV := 1;
    }

    /** `_client.PostAsync`: the next scripted response. */
    method Post(req: Request) returns (resp: Response)
      modifies this`net, this`log
      ensures resp == Answer(old(net)) && net == Rest(old(net))
      ensures log == old(log) + [Exchange(req, resp)]
    {
      resp := Answer(net);
      net := Rest(net);
      log := log + [Exchange(req, resp)];
    }

    method GetApiKeyFromCredentials() returns (outcome: Outcome<bool>)
      modifies this`net, this`log, this`currentApiKey
      ensures Step(outcome, Model()) == ExportModel.GetApiKeyFromCredentials(old(Model()))
    {
      var result := Post(Credentials);
      match result {
        case Ok(body) =>
          currentApiKey := body;
          outcome := Returned(true);
        case TransportError =>
          outcome := Threw;
        case _ =>
          outcome := Returned(false);
      }
    }

    method BatchStartStop(starting: bool, product: string, today: string) returns (outcome: Outcome<bool>)
      modifies this`net, this`log, this`batchV, this`batchRunId
      ensures Step(outcome, Model()) == ExportModel.BatchStartStop(old(Model()), starting, product, today)
      decreases |net|
    {
      var form := EventFormFor(starting, product, datetime, currentApiKey);
      var result := Post(BatchEvent(batchRunId, form));
      match result {
        case Ok(_) =>
          outcome := Returned(true);
        case TransportError =>
          outcome := Threw;
        case OtherStatus =>
          outcome := Returned(false);
        case BadRequest =>
          batchV := batchV + 1;
          if Contains(batchRunId, BackfillMark) {
            batchRunId := Replace(batchRunId, VersionMarker(batchV - 1), VersionMarker(batchV));
          } else {
            batchRunId := RunId(BatchName, today, batchV);
          }
          outcome := BatchStartStop(starting, product, today);
      }
    }

    /** The body of the loop for one non-empty chunk of `records` records at
        index `index`: the `Retrier:` loop, updating the `ok` flag and the
        `retriesCount` it shares with the other chunks. */
    method SendChunk(index: nat, records: nat, ok0: bool, retries0: nat) returns (ok: bool, retriesCount: nat)
      modifies this`net, this`log
      ensures Delivery.Pass(ok, retriesCount, net, log)
           == Delivery.SendChunk(index, records, batchRunId, currentApiKey, Delivery.Pass(ok0, retries0, old(net), old(log)))
    {
      ok, retriesCount := ok0, retries0;
      ghost var target := Delivery.SendChunk(index, records, batchRunId, currentApiKey, Delivery.Pass(ok, retriesCount, net, log));
      var again := true;
      while again
        invariant again ==> Delivery.SendChunk(index, records, batchRunId, currentApiKey, Delivery.Pass(ok, retriesCount, net, log)) == target
        invariant !again ==> Delivery.Pass(ok, retriesCount, net, log) == target
        decreases again, if retriesCount < Delivery.RetryLimit then Delivery.RetryLimit - retriesCount else 0
      {
        var result := Post(Upload(index, records, batchRunId, currentApiKey));
        again := false;
        match result {
          case Ok(_) =>
          case TransportError =>
            retriesCount := retriesCount + 1;
            log := log + [Pause(Delivery.RetryPauseMillis)];
            again := retriesCount < Delivery.RetryLimit;
          case _ =>
            ok := false;
        }
      }
    }

    /** One turn of the loop over indices: `data.Skip(i * 900).Take(900)`,
        sent unless it is empty. */
    method SendIndex<T>(data: seq<T>, i: nat, ok0: bool, retries0: nat) returns (ok: bool, retriesCount: nat)
      modifies this`net, this`log
      ensures Delivery.Pass(ok, retriesCount, net, log)
           == Delivery.Next(data, i, batchRunId, currentApiKey, Delivery.Pass(ok0, retries0, old(net), old(log)))
    {
      var d := Slice(data, i);
      if |d| > 0 {
        ok, retriesCount := SendChunk(i, |d|, ok0, retries0);
      } else {
        ok, retriesCount := ok0, retries0;
      }
    }

    /** The chunks one after another, with the one `ok` flag and the one
        `retriesCount` of the call. */
    method SendData<T>(data: seq<T>) returns (ok: bool)
      modifies this`net, this`log
      ensures var p := Delivery.SendData(data, batchRunId, currentApiKey, old(net), old(log));
        ok == p.ok && net == p.net && log == p.log
    {
      var runId, key := batchRunId, currentApiKey;
      ghost var target := Delivery.SendData(data, runId, key, net, log);
      ok := true;
      var retriesCount: nat := 0;
      var runs := |data| / MaxChunk + 1;
      var i := 0;
      while i < runs
        invariant i <= runs
        invariant Delivery.SendFrom(data, i, runs, runId, key, Delivery.Pass(ok, retriesCount, net, log)) == target
      {
        Delivery.SendFromStep(data, i, runs, runId, key, Delivery.Pass(ok, retriesCount, net, log));
        ok, retriesCount := SendIndex(data, i, ok, retriesCount);
        i := i + 1;
      }
      Delivery.SendFromDone(data, runs, runId, key, Delivery.Pass(ok, retriesCount, net, log));
    }

    method ProcessData<T>(data: seq<T>)
      modifies this`net, this`log
      ensures Model() == ExportModel.ProcessData(old(Model()), data)
    {
      if |data| > 0 {
        var sent := SendData(data);
      }
    }

    method SendLogout() returns (outcome: Outcome<string>)
      modifies this`net, this`log, this`currentApiKey
      ensures Step(outcome, Model()) == ExportModel.SendLogout(old(Model()))
    {
      var result := Post(Logout(currentApiKey));
      if result.TransportError? {
        return Threw;
      }
      currentApiKey := "";
      outcome := if result.Ok? then Returned(result.body) else Returned("");
    }

    /** One turn of the `doOver:` loop; `again` says it goes round once more. */
    method Attempt<T>(data: seq<T>, today: string) returns (again: bool, outcome: Outcome<bool>)
      modifies this`net, this`log, this`batchRunId, this`batchV, this`retry
      ensures (if again then Again(Model()) else Done(Step(outcome, Model())))
           == ExportModel.Attempt(old(Model()), data, today)
    {
      again, outcome := false, Threw;
      var cut := Truncate(batchRunId);
      if cut.None? {
        return;
      }
      batchRunId := cut.value;
      var started := BatchStartStop(true, Product, today);
      if started.Threw? {
        return;
      }
      if started.value {
        ProcessData(data);
        log := log + [Pause(StopPauseMillis)];
        var stopped := BatchStartStop(false, Product, today);
        outcome := if stopped.Threw? then Threw else Returned(true);
        return;
      }
      log := log + [Pause(StartRetryPauseMillis)];
      retry := retry + 1;
      if retry >= StartLimit {
        outcome := Returned(false);
      } else {
        again := true;
      }
    }

    /** The `doOver:` loop of DataLakeExport; the value says whether a
        start succeeded. */
    method StartAttempts<T>(data: seq<T>, today: string) returns (outcome: Outcome<bool>)
      modifies this`net, this`log, this`batchRunId, this`batchV, this`retry
      ensures Step(outcome, Model()) == ExportModel.StartAttempts(old(Model()), data, today)
    {
      var again := true;
      outcome := Threw;
      while again
        invariant again ==> ExportModel.StartAttempts(Model(), data, today) == ExportModel.StartAttempts(old(Model()), data, today)
        invariant !again ==> Step(outcome, Model()) == ExportModel.StartAttempts(old(Model()), data, today)
        decreases again, StartLimit - retry
      {
        again, outcome := Attempt(data, today);
      }
    }

    method DataLakeExport<T>(data: seq<T>, today: string) returns (outcome: Outcome<()>)
      modifies this`net, this`log, this`currentApiKey, this`batchRunId, this`batchV, this`retry
      ensures Step(outcome, Model()) == ExportModel.DataLakeExport(old(Model()), data, today)
    {
      var login := GetApiKeyFromCredentials();
      if login.Threw? {
        return Threw;
      }
      if !login.value {
        return Returned(());
      }
      var run := StartAttempts(data, today);
      if run.Threw? {
        return Threw;
      }
      var out := SendLogout();
      outcome := if out.Threw? then Threw else Returned(());
    }

    method RunDataLakeExporter<T>(data: seq<T>, now: string, today: string) returns (outcome: Outcome<()>)
      modifies this`net, this`log, this`currentApiKey, this`batchRunId, this`batchV, this`retry, this`datetime
      ensures Step(outcome, Model()) == ExportModel.RunDataLakeExporter(old(Model()), data, now, today)
    {
      datetime := now;
      batchRunId := RunId(BatchName, today, batchV);
      outcome := DataLakeExport(data, today);
    }
  }
}

=== FILE: Http.dfy ===
/** The exporter's traffic with the data-lake service. The HTTP client is
    modelled by a script: the sequence of responses it will return, consumed
    one per request. A request for which the script has no answer left fails
    at the transport level, as an unreachable service does. */
module Http {

  /** What one POST comes back with: a success status (with the body read
      from it), HTTP 400, any other non-success status, or an exception
      thrown by the client itself. */
  datatype Response = Ok(body: string) | BadRequest | OtherStatus | TransportError

  /** The form of a batch-run event (POST /marketdashboard/BatchRun/{id}/Events).
      Its runDate field is not modelled. */
  datatype EventForm = EventForm(
    eventType: string,
    dictionaryVersion: string,
    batchId: string,
    asOf: string,
    apikey: string)

  /** The four requests the exporter sends. An upload names its loop index
      (the suffix of its requestId) and how many records its payload holds. */
  datatype Request =
    | Credentials                                    // POST /apikey
    | Logout(apikey: string)                         // POST /apikey/logout
    | BatchEvent(batchRunId: string, form: EventForm)
    | Upload(chunk: nat, records: nat, batchRunId: string, apikey: string)

  /** The observable history: each request with the response it got, and
      each blocking pause of the given length. */
  datatype Event = Exchange(request: Request, response: Response) | Pause(millis: nat)

  /** The response the next request gets. */
  function Answer(net: seq<Response>): Response
  {
    if net == [] then TransportError else net[0]
  }

  /** The script left after one request. */
  function Rest(net: seq<Response>): (rest: seq<Response>)
    ensures |rest| == if net == [] then 0 else |net| - 1
  {
    if net == [] then [] else net[1..]
  }

  /** `log` is `before` with events appended. */
  predicate Extends(before: seq<Event>, log: seq<Event>)
  {
    |before| <= |log| && log[..|before|] == before
  }

  predicate IsStatusFailure(r: Response)
  {
    r.BadRequest? || r.OtherStatus?
  }

  /** How many events of each kind a history holds. A batch event answered
      400 is a conflict; any other answer ends a start or stop call. */
  datatype Tally = Tally(
    logins: nat,        // credential requests
    logouts: nat,       // logout requests
    conflicts: nat,     // batch events answered 400, Start or End
    starts: nat,        // Start events answered anything but 400
    started: nat,       // Start events answered with success
    startRefused: nat,  // Start events answered with a status other than 400
    stops: nat,         // End events answered anything but 400
    uploads: nat,       // chunk uploads
    rejected: nat,      // chunk uploads answered with a non-success status
    lost: nat)          // chunk uploads that failed at the transport level
  {
    function Plus(t: Tally): Tally
    {
      Tally(logins + t.logins, logouts + t.logouts, conflicts + t.conflicts,
            starts + t.starts, started + t.started, startRefused + t.startRefused,
            stops + t.stops, uploads + t.uploads, rejected + t.rejected, lost + t.lost)
    }
  }

  const Nothing := Tally(0, 0, 0, 0, 0, 0, 0, 0, 0, 0)

  function Bit(b: bool): nat { if b then 1 else 0 }

  /** The kinds one event belongs to. */
  function TallyOfEvent(e: Event): Tally
  {
    match e
    case Pause(_) => Nothing
    case Exchange(req, resp) =>
      match req
      case Credentials => Nothing.(logins := 1)
      case Logout(_) => Nothing.(logouts := 1)
      case BatchEvent(_, form) =>
        var start := form.eventType == "Start";
        var final := !resp.BadRequest?;
        Nothing.(conflicts := Bit(!final),
                 starts := Bit(start && final),
                 started := Bit(start && resp.Ok?),
                 startRefused := Bit(start && resp.OtherStatus?),
                 stops := Bit(!start && final))
      case Upload(_, _, _, _) =>
        Nothing.(uploads := 1, rejected := Bit(IsStatusFailure(resp)), lost := Bit(resp.TransportError?))
  }

  /** The kinds of all events of a history, counted. */
  function TallyOf(log: seq<Event>): Tally
    decreases |log|
  {
    if log == [] then Nothing else TallyOf(log[..|log| - 1]).Plus(TallyOfEvent(log[|log| - 1]))
  }

  /** Appending one event adds its kinds to the count. */
  lemma TallySnoc(log: seq<Event>, e: Event)
    ensures TallyOf(log + [e]) == TallyOf(log).Plus(TallyOfEvent(e))
  {
    assert (log + [e])[..|log|] == log;
  }

  lemma PlusNothing(t: Tally)
    ensures t.Plus(Nothing) == t
  {
  }

  lemma PlusUpload(t: Tally, e: Event)
    requires e.Exchange? && e.request.Upload?
    ensures t.Plus(TallyOfEvent(e)) == t.(uploads := t.uploads + 1,
                                          rejected := t.rejected + Bit(IsStatusFailure(e.response)),
                                          lost := t.lost + Bit(e.response.TransportError?))
  {
  }

  /** An upload counts as one upload, and as a rejection or a transport
      failure according to its response. */
  lemma UploadCounted(log: seq<Event>, e: Event)
    requires e.Exchange? && e.request.Upload?
    ensures var t := TallyOf(log);
      TallyOf(log + [e]) == t.(uploads := t.uploads + 1,
                               rejected := t.rejected + Bit(IsStatusFailure(e.response)),
                               lost := t.lost + Bit(e.response.TransportError?))
  {
    TallySnoc(log, e);
    PlusUpload(TallyOf(log), e);
  }

  /** A pause counts as nothing. */
  lemma PauseCounted(log: seq<Event>, millis: nat)
    ensures TallyOf(log + [Pause(millis)]) == TallyOf(log)
  {
    TallySnoc(log, Pause(millis));
    PlusNothing(TallyOf(log));
  }

  /** Extension is transitive. */
  lemma ExtendsTrans(a: seq<Event>, b: seq<Event>, c: seq<Event>)
    requires Extends(a, b) && Extends(b, c)
    ensures Extends(a, c)
  {
    assert c[..|a|] == c[..|b|][..|a|];
  }

  /** A credentials request counts as one login and nothing else. */
  lemma LoginCounted(log: seq<Event>, resp: Response)
    ensures var t := TallyOf(log);
      TallyOf(log + [Exchange(Credentials, resp)]) == t.(logins := t.logins + 1)
  {
    TallySnoc(log, Exchange(Credentials, resp));
  }

  /** A logout request counts as one logout and nothing else. */
  lemma LogoutCounted(log: seq<Event>, key: string, resp: Response)
    ensures var t := TallyOf(log);
      TallyOf(log + [Exchange(Logout(key), resp)]) == t.(logouts := t.logouts + 1)
  {
    TallySnoc(log, Exchange(Logout(key), resp));
  }

  /** A start is counted as a success or a refusal only when it is counted
      as a start. */
  lemma {:induction false} StartOutcomesWithinStarts(log: seq<Event>)
    ensures TallyOf(log).started + TallyOf(log).startRefused <= TallyOf(log).starts
    decreases |log|
  {
    if log != [] {
      var init := log[..|log| - 1];
      assert log == init + [log[|log| - 1]];
      StartOutcomesWithinStarts(init);
      TallySnoc(init, log[|log| - 1]);
    }
  }
}

=== FILE: Text.dfy ===
/** String operations that the exporter applies to batch-run identifiers, with
    the meaning .NET gives them under ordinal comparison. */
module Text {

  datatype Option<+T> = None | Some(value: T)

  /** The character of a decimal digit. */
  function Digit(d: nat): (c: char)
    requires d < 10
    ensures '0' <= c <= '9'
    ensures c as int - '0' as int == d
  {
    (d + '0' as int) as char
  }

  /** Decimal rendering of a non-negative int, as string interpolation writes it. */
  function NatToString(n: nat): (s: string)
    ensures |s| > 0
    ensures forall k :: 0 <= k < |s| ==> '0' <= s[k] <= '9'
    ensures n >= 10 <==> |s| > 1
    decreases n
  {
    if n < 10 then [Digit(n)] else NatToString(n / 10) + [Digit(n % 10)]
  }

  /** Reads a string of decimal digits back as a number. */
  function ParseNat(s: string): nat
    requires forall k :: 0 <= k < |s| ==> '0' <= s[k] <= '9'
    decreases |s|
  {
    if |s| == 0 then 0
    else ParseNat(s[..|s| - 1]) * 10 + (s[|s| - 1] as int - '0' as int)
  }

  /** Reading back what NatToString writes gives the number again. */
  lemma {:induction false} ParseNatToString(n: nat)
    ensures ParseNat(NatToString(n)) == n
    decreases n
  {
    var s := NatToString(n);
    if n < 10 {
      assert s[..0] == [];
    } else {
      ParseNatToString(n / 10);
      assert s[..|s| - 1] == NatToString(n / 10);
    }
  }

  /** Distinct numbers have distinct decimal renderings. */
  lemma NatToStringInjective(a: nat, b: nat)
    requires a != b
    ensures NatToString(a) != NatToString(b)
  {
    ParseNatToString(a);
    ParseNatToString(b);
  }

  /** `p` occurs in `s` starting at index `k`. */
  predicate OccursAt(s: string, p: string, k: int)
  {
    0 <= k && k + |p| <= |s| && s[k..k + |p|] == p
  }

  /** The last start index at or below `k` where `p` occurs in `s`, or -1. */
  function LastIndexAtOrBelow(s: string, p: string, k: int): (r: int)
    ensures r == -1 || 0 <= r <= k
    ensures r >= 0 ==> OccursAt(s, p, r)
    ensures forall j :: r < j <= k ==> !OccursAt(s, p, j)
    decreases k + 1
  {
    if k < 0 then -1
    else if OccursAt(s, p, k) then k
    else LastIndexAtOrBelow(s, p, k - 1)
  }

  /** String.LastIndexOf(p, StringComparison.Ordinal): the start of the last
      occurrence of `p` in `s`, or -1 when there is none. */
  function LastIndexOf(s: string, p: string): (r: int)
    ensures -1 <= r
    ensures r >= 0 ==> OccursAt(s, p, r)
    ensures forall j :: OccursAt(s, p, j) ==> j <= r
  {
    LastIndexAtOrBelow(s, p, |s| - |p|)
  }

  /** String.Contains(p) under ordinal comparison: some occurrence. */
  predicate Contains(s: string, p: string)
  {
    exists k | 0 <= k <= |s| - |p| :: OccursAt(s, p, k)
  }

  /** Contains holds exactly when LastIndexOf finds an occurrence. */
  lemma ContainsIff(s: string, p: string)
    ensures Contains(s, p) <==> LastIndexOf(s, p) >= 0
  {
  }

  /** A string lacking the first character of a non-empty pattern does not contain it. */
  lemma NotContainsWithoutFirstChar(s: string, p: string)
    requires |p| > 0 && p[0] !in s
    ensures !Contains(s, p)
  {
  }

  /** String.Replace(p, q) for a non-empty `p`: the occurrences of `p` found by
      a left-to-right scan, without overlap, are each replaced by `q`. */
  function Replace(s: string, p: string, q: string): (r: string)
    requires |p| > 0
    ensures |q| >= |p| ==> |r| >= |s|
    ensures |q| == |p| ==> |r| == |s|
    decreases |s|
  {
    if |s| < |p| then s
    else if s[..|p|] == p then q + Replace(s[|p|..], p, q)
    else [s[0]] + Replace(s[1..], p, q)
  }

  /** Replace leaves a string without an occurrence of the pattern as it was. */
  lemma {:induction false} ReplaceWithoutOccurrence(s: string, p: string, q: string)
    requires |p| > 0 && !Contains(s, p)
    ensures Replace(s, p, q) == s
    decreases |s|
  {
    if |s| >= |p| {
      assert !OccursAt(s, p, 0);
      assert s[..|p|] != p;
      if Contains(s[1..], p) {
        var k := LastIndexOf(s[1..], p);
        assert s[1..][k..k + |p|] == s[k + 1..k + 1 + |p|];
        assert OccursAt(s, p, k + 1);
        assert false;
      }
      ReplaceWithoutOccurrence(s[1..], p, q);
    }
  }

  /** Replace copies a prefix that lacks the pattern's first character and
      goes on after it. */
  lemma {:induction false} ReplaceSkipsPrefix(pre: string, rest: string, p: string, q: string)
    requires |p| > 0 && p[0] !in pre
    ensures Replace(pre + rest, p, q) == pre + Replace(rest, p, q)
    decreases |pre|
  {
    var s := pre + rest;
    if pre != [] {
      assert s[0] == pre[0];
      if |s| < |p| {
        assert |rest| < |p|;
      } else {
        assert s[..|p|] != p by { assert s[..|p|][0] == pre[0]; }
        assert s[1..] == pre[1..] + rest;
        ReplaceSkipsPrefix(pre[1..], rest, p, q);
        assert [s[0]] + pre[1..] == pre;
      }
    } else {
      assert s == rest;
    }
  }

  /** An occurrence at the front is replaced, and the scan goes on after it. */
  lemma ReplaceAtFront(p: string, rest: string, q: string)
    requires |p| > 0
    ensures Replace(p + rest, p, q) == q + Replace(rest, p, q)
  {
    var s := p + rest;
    assert s[..|p|] == p;
    assert s[|p|..] == rest;
  }

  /** Replace rewrites a string that is exactly the pattern into the replacement. */
  lemma ReplaceWhole(p: string, q: string)
    requires |p| > 0
    ensures Replace(p, p, q) == q
  {
    assert p[..|p|] == p;
    assert p[|p|..] == [];
  }
}
